=== FILE: README.md ===
# skmldb request model

skmldb is a thin Python client for a machine-learning database reached over
HTTP. Everything it does before an HTTP call is pure: it builds JSON payloads
for procedures (`transform`, `import.text`, `export.csv`,
`classifier.train`, `classifier.test`, `classifier.experiment`) and SQL-like
query strings. It then checks the status code of the answer. This project
models that pure part in Dafny and proves what each builder promises.

- `Wrappers`, `JsonValue`, `Remote`: `Option`/`Result`, a JSON value type
  (`JNull` is Python's `None`), and the abstract service.
  - A request is a path and a body.
  - A response is a status code and a parsed body.
  - 201 means created.
  - The exceptions the client raises form one `Error` datatype.
  - Python's chained subscript `doc[k0][k1]...` on a parsed body raises `KeyError` or `TypeError` as Python does.
- `Decimal`, `Joining`, `Template`: the Python text operations the builders use.
  - `str()` of an integer, with its parser.
  - `sep.join` and `str.split`.
  - `template % mapping` for `%(key)s` fields, including the `KeyError` on a missing key.
- `Payloads`: the payload classes of utils.py and procedures.py.
  - `OutputDataset`, `_create_output_dataset`, `Transform`, `ImportText` and `ExportCSV`.
  - The "dict literal, then `if x is not None: params[k] = x`" pattern is built once, generically.
- `Files`: `Dataset.extension` and `Dataset.file_path`.
- `CrossValidation`: `train_test_split`.
  - Fills in the size defaults and runs the sum check.
  - Turns each size into a truncated bucket threshold.
  - Sequences the two requests.
- `Sampling`: `stratified_sample` in random.py and its copy in utils.py, both as written and as evidently intended.
- `Estimators`: random forest, logistic regression and decision tree.
  - Their configuration records.
  - `fit`, with its training payload.
  - `predict`, with its transform payload and prediction-set name.
- `Classifier`: `Test` (argument checks, payload, reading the results into `BestMCC`, `BestF` and `auc`) and `experiment`.

Decimal conventions:
- Python's `int()` on a float truncates toward zero. This is `CrossValidation.Trunc`, not rounding.
- Sizes and proportions are exact `real`s.

Query strings drop the whitespace and line breaks at both ends of the
triple-quoted text. Each run of whitespace inside is collapsed to a single
space. Every other character is as in the source.

The docstring of `train_test_split` says integer sizes mean absolute counts.
The code treats every size as a fraction and truncates it with `int()`. The
model follows the code.

`random.stratified_sample` does not check the response and returns nothing.
Only the request it sends is modelled. An empty `weights` is not rejected: the
intended call then sends `SELECT * FROM merge()`.

## Model

| member | source | states |
|---|---|---|
| Payloads.CallOutputDataset | utils.py:224-239 | The payload always carries the given `id` and always has `params`. It has `type` exactly when a type was given. A tabular spec gets `unknownColumns = "add"` and keeps every other caller param. Any other type leaves the params alone. |
| Payloads.CallOutputDatasetIdempotent | utils.py:230-237 | Calling the same spec a second time gives the same payload and leaves the spec unchanged. |
| Payloads.TabularSpecPayload | utils.py:216-239 | `OutputDataset(id, "tabular")()` with no params is the tabular descriptor `{id, type: "tabular", params: {unknownColumns: "add"}}`. |
| Payloads.CreateOutputDataset | utils.py:565-573 | Dispatches on the kind of argument. A spec gives its payload. None gives a tabular spec named `dataset_name`. A string gives a tabular spec of that name. A dict passes through unchanged. Any other value gives None. |
| Payloads.CreateOutputDatasetIdempotent | utils.py:565-573 | Normalising an already-normalised descriptor changes nothing. The only exception is an unsupported value: it becomes None, and None then becomes a tabular spec. |
| Payloads.TransformParams | procedures.py:38-46 | The params have exactly the keys `inputData`, `outputDataset` and `runOnCreation`. `inputData` and `runOnCreation` are copied. `outputDataset` is normalised. |
| Payloads.TransformNameIsTabularSpec | procedures.py:14-46 | A plain output name is the same as the tabular spec with that id. The default empty name gives a tabular spec with an empty id. `runOnCreation` defaults to true. |
| Payloads.Mandatory | utils.py:127-130 | The dict literal holds every listed key with its value, and no other key. |
| Payloads.PutAllPresent | utils.py:131-156 | A run of `is not None` guards keeps the keys already present. Each guarded key is present exactly when its value is not None, and then holds that value. Nothing else is added. |
| Payloads.BuildParams | utils.py:125-158 | A dict literal followed by guards has the payload shape: mandatory keys hold their values, guarded keys are present iff not None, and there are no other keys. |
| Payloads.ImportKeysDistinct | utils.py:127-156 | The fifteen `import.text` keys are pairwise distinct. |
| Payloads.ImportTextParams | utils.py:125-158 | `dataFileUrl` and `outputDataset` are always present with their values. Each of the thirteen optional attributes is present exactly when it is not None, with its value copied verbatim. There is no other key. |
| Payloads.ReadShaped | utils.py:125-158 | From a dict of the payload shape, reading each key back gives exactly the values it was built from. |
| Payloads.ImportTextRoundTrip | utils.py:125-158 | Every `ImportText` attribute can be read back from the params, so none is lost or confused with another. |
| Payloads.ExportKeysDistinct | utils.py:198-210 | The six `export.csv` keys are pairwise distinct. |
| Payloads.ExportCsvParams | utils.py:196-213 | `exportData` and `dataFileUrl` are always present. `headers`, `delimiter`, `quoteChar` and `runOnCreation` are each present exactly when not None. There is no other key. |
| Payloads.ExportCsvRoundTrip | utils.py:196-213 | Every `ExportCSV` attribute can be read back from the params. |
| Files.NewDataset | utils.py:384-393 | A new `Dataset` keeps its name and compression and starts in the directory "". |
| Files.PathJoin | utils.py:397 | `os.path.join` for two parts on POSIX. An absolute second part wins. Otherwise a separator is inserted only when the first part is non-empty and does not already end in one. The result always ends with the second part. |
| Files.ExtensionGzip | utils.py:400-406 | The extension is "gzip" exactly for compression "gz" or "gzip". It is "csv" exactly for no compression or "csv". |
| Files.ExtensionAgrees | utils.py:400-406 | Two datasets have the same extension iff their compressions are equal, both spell gzip, or both spell csv. |
| Files.Extension | utils.py:400-406 | The extension is never the abbreviation "gz". With no compression it is "csv". Any compression other than "gz" names itself. |
| Files.FilePath | utils.py:395-398 | The file path is longer than the extension it ends with. |
| Files.FilePathParts | utils.py:395-398 | The path is the joined directory and name, then a dot, then the extension. |
| Files.NewDatasetPath | utils.py:384-398 | For a fresh dataset, whatever its name, the path is the name, a dot and the extension. |
| CrossValidation.ResolveSizes | cross_validation.py:53-60 | With neither size given, test is 0.25 and train 0.75. A given size is kept. A missing size becomes the complement of the other. |
| CrossValidation.DefaultedSizesSumToOne | cross_validation.py:53-60 | When at most one size is given, the resolved sizes sum to exactly 1. |
| CrossValidation.Trunc | cross_validation.py:74 | `int()` truncates toward zero: it is the floor for non-negative values and the ceiling for negative ones. |
| CrossValidation.TruncMonotone | cross_validation.py:74 | Truncation preserves order. |
| CrossValidation.SplitsDisjoint | cross_validation.py:62-89 | Whenever the sum check passes, no bucket is kept by both the train filter (`< int(train*100)`) and the test filter (`>= int(100 - test*100)`). This needs neither size to lie in [0, 1]. |
| CrossValidation.SplitsPartition | cross_validation.py:62-89 | When the sizes sum to exactly 1, every bucket is kept by exactly one of the two filters. |
| CrossValidation.DefaultThresholds | cross_validation.py:53-89 | The defaults give the thresholds `< 75` and `>= 75`. |
| CrossValidation.ThresholdsInRange | cross_validation.py:74-89 | Sizes in [0, 1] give thresholds in 0..100. |
| CrossValidation.FilterQuery | cross_validation.py:72-89 | A split query begins with the `SELECT * FROM dataset WHERE rowHash()%100` prefix. |
| CrossValidation.FilterQueryRoundTrip | cross_validation.py:72-89 | The bucket condition can be parsed back from a split query. |
| CrossValidation.FilterQueryInjective | cross_validation.py:72-89 | Two split queries are equal iff their bucket conditions are equal. |
| CrossValidation.PlanSplit | cross_validation.py:53-99 | A sum above 1 raises `ValueError` before any request. Otherwise the train transform is always sent first. A refused first request raises after that one request, and the second is never sent; otherwise both are sent, in order. Success means both were created, and returns `("d"+hex1, "d"+hex2)`. |
| CrossValidation.RangeNotChecked | cross_validation.py:62 | Only the sum is checked: test = -0.5 with train = 1.5 is accepted, with both thresholds at 150. |
| Sampling.UnexpectedKeyword | procedures.py:14 | Reports the first keyword the `Transform` constructor does not accept. It reports nothing exactly when all keywords are accepted. |
| Sampling.MergeQuery | random.py:61 | The merge query holds the comma-joined sub-queries between `SELECT * FROM merge(` and `)`, starting with the first sub-query. An empty list gives `SELECT * FROM merge()`. |
| Sampling.StratifiedSampleAsWritten | random.py:49-69 | As written, the call can only raise `KeyError` (from a `%`) or `TypeError` (from the `Transform` call). If it got through, it would PUT to `/v1/procedures/stratifiedSample`. |
| Sampling.FirstFormatFails | random.py:51-55 | A first `%` that binds only the dataset key and `col` fails at `%(value)s`, in either copy. |
| Sampling.AsWrittenRaisesKeyError | random.py:51-55 | As written, the first `%` raises `KeyError('value')` for every input. |
| Sampling.OutputDataRejected | random.py:65-68 | The keyword `outputData` is rejected with `TypeError`. |
| Sampling.CorrectedKeywordsAccepted | procedures.py:14 | The keywords `inputData` and `outputDataset` are accepted. |
| Sampling.FormatSample | random.py:51-55 | The sample template with all four fields bound renders to the `sample(...)` sub-query. |
| Sampling.Subselect | random.py:51-59 | The intended two-stage substitution gives a sub-query that samples `value` rows without replacement from the dataset and filters `col = 'key'`. |
| Sampling.Subselects | random.py:57-59 | There is one sub-query per weights entry, in iteration order. |
| Sampling.StratifiedSampleInUtilsAsWritten | utils.py:576-594 | As written, the utils.py copy can only raise `KeyError` or `TypeError`. If it got through, `mldb.put` would receive the uncalled `Transform` object. |
| Sampling.UtilsAsWrittenRaisesKeyError | utils.py:577-581 | As written, the utils.py copy raises `KeyError('value')` for every input. |
| Sampling.UtilsPutBody | utils.py:587-594 | Even with the template and keyword fixed, utils.py hands `mldb.put` a `Transform` object over the merge query, never a payload document. |
| Sampling.CallingUtilsPutBody | utils.py:587-594 | Calling that object gives exactly the payload of the corrected utils.py request. |
| Sampling.SampleOutput | random.py:49-50 | Without an output, a generated name is wrapped as a tabular descriptor. A given output is used as is. |
| Sampling.StratifiedSample | random.py:49-69 | The intended request is a `transform` procedure PUT to `/v1/procedures/stratifiedSample`. Its params have exactly the keys `inputData`, `outputDataset` and `runOnCreation`, with `runOnCreation` true. Its `inputData` is `SELECT * FROM merge(` + the comma-joined sub-queries + `)`. Its output is the given one normalised, or a tabular spec with a generated id. |
| Sampling.StratifiedSampleInUtils | utils.py:576-594 | The utils.py copy also sends a `transform` procedure to `/v1/procedures/stratifiedSample`. Its params have exactly the three `Transform` keys, with `runOnCreation` true and the merge of the `table` sub-queries. A missing output becomes a tabular spec with id `table + "_stratified"`. A given output is normalised with that default, then normalised again by the `Transform`. |
| Sampling.CopiesAgree | utils.py:576-594 | With a spec, a name or a dict given, the two copies send identical requests. |
| Sampling.CopiesDifferOnUnsupported | utils.py:589-594 | For any other output value the copies differ. random.py sends `outputDataset: None`. utils.py first turns the value into None, which the `Transform` then makes a tabular spec with a null id. |
| Estimators.NewLogisticRegression | linear_model.py:41-61 | Construction succeeds iff `feature_proportion` is in [0, 1]. Otherwise it raises `ValueError`. |
| Estimators.Configuration | ensemble.py:52-67 | The configuration has exactly one key, the algorithm key (`rf`, `logisticRegression` or `dt`). |
| Estimators.ReadConfiguration | linear_model.py:50-61 | A configuration is read as an algorithm only when its entry has the `type` that algorithm fixes ("bagging" for `rf`, whose weak learner is a "decision_tree"; "glz" for `logisticRegression`; "decision_tree" for `dt`). |
| Estimators.ConfigurationRoundTrip | linear_model.py:50-61 | Every hyper-parameter the constructor was given can be read back from its configuration record, and every entry carries its fixed `type`. |
| Estimators.DefaultConfigurations | ensemble.py:19-67 | The default forest bags 10 decision trees with max depth -1, "gentle" updates and feature proportion 1. The default tree has max depth -1 and "prob" updates. |
| Estimators.TrainingDataFeatures | ensemble.py:87-95 | The training query holds the comma-joined features right after `SELECT {`. When no feature contains a comma, they split back into the list. |
| Estimators.TrainingParams | ensemble.py:97-108 | The `classifier.train` params have exactly the keys `trainingData`, `algorithm`, `configuration`, `mode`, `modelFileUrl`, `functionName` and `runOnCreation`. The training query is the one built from the dataset, features and label. `runOnCreation` is true. |
| Estimators.TrainingAlgorithmMatchesConfiguration | ensemble.py:97-108 | The training payload's `algorithm` is the only key of its `configuration`, and that configuration reads back as the estimator's own algorithm. The mode is "boolean" and `functionName` is the estimator name. |
| Estimators.Fit | tree.py:60-92 | `fit` PUTs the `classifier.train` payload to `/v1/procedures/` + name. It succeeds iff the answer is 201, recording the features and the label. Otherwise it raises with the body. |
| Estimators.PredictQuery | ensemble.py:140-149 | The prediction query starts with `SELECT f({{`, followed by the comma-joined features, and ends with the dataset. Comma-free features split back into the list. |
| Estimators.PredictName | ensemble.py:138-139 | A given name is used. Otherwise a forest or a logistic regression uses "d" + a uuid hex, and a tree uses a generated name. |
| Estimators.Predict | ensemble.py:138-159 | The transform applies the trained function to the feature row and writes a tabular dataset with the chosen name. The name is returned iff the answer is 201. Otherwise the call raises. |
| Estimators.PredictWritesReturnedName | linear_model.py:127-147 | The name `predict` returns is the id of the dataset its transform writes. |
| Classifier.TestRequest | classifier.py:80-129 | It succeeds iff an estimator is given, or both a score and a label. A score without a label raises `ArgumentError`. With neither an estimator nor a score, Python raises `UnboundLocalError`. The path is `name_test` or `dataset_test`. The params have exactly `testingData` and `runOnCreation` (true), plus `mode` iff an estimator is given. The payload has exactly `type` and `params`, plus `outputDataset` iff one was given. That `outputDataset` is the given one, normalised. |
| Classifier.EstimatorOverridesScore | classifier.py:82-93 | With an estimator, the score and label arguments are ignored. |
| Classifier.RunTest | classifier.py:126-138 | A refused test raises `ProcedureError` with the body. An accepted one is read in the source's order: subscript `bestMcc`, build `BestMCC` from it, subscript `bestF`, build `BestF`, subscript `auc`. The first step that raises decides the error. It succeeds iff all three are there and both results hold every field the constructors read. The objects returned keep the raw results. |
| Classifier.RunTestReadsScores | classifier.py:130-138 | An accepted answer with two complete results and an `auc` yields the objects built from those results (their `mcc` and `f` read from them) and that `auc`. |
| Classifier.RunTestEmptyBody | classifier.py:133-134 | An accepted answer with an empty body raises `KeyError('status')`. |
| Classifier.RunTestMalformedResults | classifier.py:133-135 | `BestMCC` raises before `bestF` is looked up. An empty `bestMcc` raises `KeyError('pr')` and a numeric one raises `TypeError`. Only a complete `bestMcc` lets a missing `bestF` raise `KeyError('bestF')`. |
| Classifier.ReadPoint | classifier.py:20-32 | `BestMCC(arg)` (and `BestF(arg)`, lines 51-63) succeeds iff all ten subscripted places exist. Each attribute is the value at its place, and `arg` is kept. Otherwise it raises what the first missing place raises, in the constructor's order. |
| Classifier.ReadPointRoundTrip | classifier.py:20-32 | An operating point written in the shape the constructor reads is read back with all ten values. |
| Remote.SubscriptAll | classifier.py:23-32 | Consecutive subscripts of one document give every value, in order, iff every path leads somewhere. Otherwise they raise the error of the first path that does not. |
| Classifier.Experiment | classifier.py:153-166 | The experiment PUT carries `{type, params}` with type `classifier.experiment`. Its params have exactly the nine keys of the source, with `runOnCreation` and `outputAccuracyDataset` true and the fixed model file pattern. |
| Classifier.ExperimentMatchesFit | classifier.py:141-166 | The experiment uses the same training query, algorithm, configuration and mode as `fit`. Its algorithm is the configuration's only key. |
| Classifier.ExperimentDefaults | classifier.py:142-158 | The name defaults to `estimator.name + "_xp"`. `kfold` is passed through. The path is `/v1/procedures/dt`. |
| Remote.Subscript | classifier.py:134-136 | `doc[k0][k1]...` yields the value iff the path leads somewhere. Otherwise it raises at the first failing step: `KeyError` for a dict lacking the key, `TypeError` for a non-dict. |
| Remote.SubscriptMissingKey | classifier.py:134-136 | When the path leads to a dict lacking the last key, the subscript raises `KeyError` for that key. |
| Decimal.IntToStringRoundTrip | cross_validation.py:74 | `str()` of an integer parses back to the same integer. |
| Decimal.IntToStringInjective | cross_validation.py:89 | Different integers render differently. |
| Joining.SplitJoin | ensemble.py:92 | `",".join` of items free of commas splits back into the items. |
| Template.Format | random.py:55 | `%` substitution succeeds iff every field's key is bound. A failure names the first unbound field. |
| Template.FillThenFormat | random.py:51-59 | Filling some keys first and the rest later is the same as filling all at once, when the key sets are disjoint. |

## Left out

- HTTP calls through the connection object are not modelled. Each response is an abstract status and parsed body, given as a parameter.
- The uuid hex values and `generate_random_name` are fresh-name parameters. `generate_random_name` is imported by tree.py and random.py but is not defined in utils.py. A name clash is not modelled.
- `Dataset.to_csv`, `from_csv`, `rollback` and `exists_on_disk` are left out, as are `import_dataset`, `export_dataset` and `dataset_from_dataframe`. They touch the filesystem, pandas or temporary files.
- `MLDBrtbopt` is left out: it runs network procedures against external hosts.
- connection.py is not part of this model. It is a process-global handle with no logic.
- IEEE float rounding is not modelled. Sizes are exact reals, so `1 - 0.7` is exactly 0.3 here.
- The `__repr__` text of `BestMCC`/`BestF` is left out. Both constructors read the same ten places, so one `Classifier.ReadPoint` models both.
- The server-side meaning of `rowHash`, `sample` and `merge` is left out.
- Python object identity and mutation are left out:
  - `OutputDataset.__call__` mutates its params; this is modelled as returning the spec after the call.
  - `fit` sets `features` and `label` before the request, so they are set even when it raises. The model only returns them on success.
  - `predict` before `fit` (an `AttributeError`) is excluded by taking a fitted estimator.
- Classifier.TestRequest: calling `Test` with an estimator that was never fitted raises `AttributeError` on `estimator.features`. This is excluded by taking an optional fitted estimator.
- Attribute values are `Json`. `runOnCreation` of `Transform` is a bool. The estimators' numeric hyper-parameters are an `int` or a `real`, as their defaults suggest.
- Classifier.RunTest: a body that is not valid JSON, which makes `json.loads` raise, is not modelled. The response content is taken as already parsed.
- Sampling.Subselect: the corrected two-stage template treats the dataset and column names as literal text. The model does not cover a second Python `%` re-reading a `%` that appears inside those names.
- Estimators.PredictName: Python `predict` for logistic regression takes no name argument, so the model requires none for it.
- `experiment` picks its algorithm with `configuration.keys()[0]`, which is Python 2 only. On a one-entry dict this is the entry's key, which is what the model uses.

## Findings

| source | as written | input that shows it | evidently intended | confidence | as-written member | corrected member |
|---|---|---|---|---|---|---|
| random.py:51-55 | The first `%` is given only `dataset` and `col`, but the template also has `%(value)s` and `%(key)s`. | any call, e.g. `stratified_sample("d", "c", {"A": 10})` | Fill `dataset` and `col` first, then `key` and `value` per entry. | high; not executed | Sampling.AsWrittenRaisesKeyError | Sampling.Subselect |
| random.py:65-68 | `Transform(inputData=merge, outputData=outputDataset)` uses a keyword the constructor does not accept. The same happens at utils.py:593. | any call that gets past the template | Pass the keyword `outputDataset`. | high; not executed | Sampling.OutputDataRejected | Sampling.StratifiedSample |
| utils.py:577-581 | The utils.py copy has the same first `%`, with only `table` and `col`. | any call | Fill `table` and `col` first, then `key` and `value` per entry. | high; not executed | Sampling.UtilsAsWrittenRaisesKeyError | Sampling.StratifiedSampleInUtils |
| utils.py:589-594 | `mldb.put` receives the `Transform` object itself, not its payload: the `()` that random.py has is missing. The put's own serialisation (pymldb) is not part of this model. | any call, once the two bugs above are fixed | Call the `Transform`, as random.py does. | medium; not executed | Sampling.UtilsPutBody | Sampling.StratifiedSampleInUtils |

In the same family, `classifier.Test` raises `UnboundLocalError` when called with neither an
estimator nor a score. Classifier.TestRequest models this as `UnboundLocal("testingData")`.



=== FILE: classifier.dfy ===
/** classifier.py: `Test` scores a trained estimator, or a score expression,
    against a labelled dataset through a `classifier.test` procedure, and
    `experiment` runs a `classifier.experiment` procedure. */
module Classifier {
  import opened Wrappers
  import opened JsonValue
  import opened Joining
  import opened Remote
  import opened Payloads
  import opened Estimators

  /** The `testingData` query with an estimator: the trained function applied
      to the quoted feature names, and the label it was fitted with. */
  function EstimatorTestingData(m: Fitted, dataset: string): string {
    "SELECT " + m.estimator.name + "({features:{\"" + Join("\",\"", m.features)
      + "\"}})[score] as score, " + m.labelName + " as label FROM " + dataset
  }

  /** The `testingData` query from a score expression and a label expression. */
  function ScoreTestingData(score: string, labelExpr: string, dataset: string): string {
    "SELECT " + score + " as score, " + labelExpr + " as label FROM " + dataset
  }

  /** The request `Test(dataset, estimator, score, label, outputDataset)`
      sends, or the error it raises first. With neither an estimator nor a
      score, `testingData` is never assigned and Python raises
      `UnboundLocalError` when the params are built. */
  function TestRequest(
    dataset: string, estimator: Option<Fitted>, score: Option<string>, labelExpr: Option<string>,
    outputDataset: OutputArg): (r: Result<Request, Error>)
    ensures r.Success? <==> estimator.Some? || (score.Some? && labelExpr.Some?)
    ensures estimator.None? && score.Some? && labelExpr.None? ==> r == Failure(ArgumentError)
    ensures estimator.None? && score.None? ==> r == Failure(UnboundLocal("testingData"))
    ensures r.Success? && estimator.Some? ==> r.value.path == "/v1/procedures/" + estimator.value.estimator.name + "_test"
    ensures r.Success? && estimator.None? ==> r.value.path == "/v1/procedures/" + dataset + "_test"
    ensures r.Success? ==>
      && r.value.payload.JObj?
      && "type" in r.value.payload.fields && r.value.payload.fields["type"] == JStr("classifier.test")
      && "params" in r.value.payload.fields && r.value.payload.fields["params"].JObj?
    ensures r.Success? ==>
      var params := r.value.payload.fields["params"].fields;
      && "testingData" in params
      && "runOnCreation" in params && params["runOnCreation"] == JBool(true)
      && ("mode" in params <==> estimator.Some?)
      && (estimator.Some? ==> params["mode"] == JStr(Mode))
      && (estimator.Some? ==> params["testingData"] == JStr(EstimatorTestingData(estimator.value, dataset)))
      && (estimator.None? ==> params["testingData"] == JStr(ScoreTestingData(score.value, labelExpr.value, dataset)))
    ensures r.Success? ==>
      r.value.payload.fields["params"].fields.Keys
        == {"testingData", "runOnCreation"} + (if estimator.Some? then {"mode"} else {})
    ensures r.Success? ==>
      r.value.payload.fields.Keys
        == {"type", "params"} + (if outputDataset.Absent? then {} else {"outputDataset"})
    ensures r.Success? ==>
      && ("outputDataset" in r.value.payload.fields <==> !outputDataset.Absent?)
      && (!outputDataset.Absent? ==> r.value.payload.fields["outputDataset"] == CreateOutputDataset(outputDataset, None))
  {
    if estimator.None? && score.None? then Failure(UnboundLocal("testingData"))
    else if estimator.None? && labelExpr.None? then Failure(ArgumentError)
    else
      var testingData :=
        if estimator.Some? then EstimatorTestingData(estimator.value, dataset)
        else ScoreTestingData(score.value, labelExpr.value, dataset);
      var procName := if estimator.Some? then estimator.value.estimator.name else dataset;
      var params := map["testingData" := JStr(testingData), "runOnCreation" := JBool(true)];
      var params := if estimator.Some? then params["mode" := JStr(Mode)] else params;
      var payload := map["type" := JStr("classifier.test"), "params" := JObj(params)];
      var payload :=
        if !outputDataset.Absent? then payload["outputDataset" := CreateOutputDataset(outputDataset, None)]
        else payload;
      Success(Request("/v1/procedures/" + procName + "_test", JObj(payload)))
  }

  /** Given an estimator, the score and label arguments are ignored. */
  lemma EstimatorOverridesScore(
    dataset: string, m: Fitted, score1: Option<string>, label1: Option<string>,
    score2: Option<string>, label2: Option<string>, outputDataset: OutputArg)
    ensures TestRequest(dataset, Some(m), score1, label1, outputDataset)
         == TestRequest(dataset, Some(m), score2, label2, outputDataset)
  {
  }

  /** The places `BestMCC.__init__` and `BestF.__init__` subscript in the
      result they are given, in the order they read them. The two classes
      read the same places. */
  const PointFields: seq<seq<string>> := [
    ["pr", "recall"], ["pr", "precision"], ["pr", "f"], ["mcc"], ["gain"], ["threshold"],
    ["counts", "falseNegatives"], ["counts", "truePositives"],
    ["counts", "trueNegatives"], ["counts", "falsePositives"]]

  /** A `BestMCC` or `BestF` object: the result it was built from (`self.arg`)
      and the ten values its constructor read out of it. */
  datatype OperatingPoint = OperatingPoint(
    arg: Json, recall: Json, precision: Json, f: Json, mcc: Json, gain: Json, threshold: Json,
    falseNegatives: Json, truePositives: Json, trueNegatives: Json, falsePositives: Json)

  /** The result holds every value the constructor reads. */
  ghost predicate HasPointFields(arg: Json) {
    forall i :: 0 <= i < |PointFields| ==> Lookup(arg, PointFields[i]).Some?
  }

  /** `BestMCC(arg)` or `BestF(arg)`: the object, or the `KeyError`/`TypeError`
      of the first subscript in the constructor that fails. */
  function ReadPoint(arg: Json): (r: Result<OperatingPoint, Error>)
    ensures r.Success? <==> HasPointFields(arg)
    ensures r.Success? ==>
      && r.value.arg == arg
      && Lookup(arg, ["pr", "recall"]) == Some(r.value.recall)
      && Lookup(arg, ["pr", "precision"]) == Some(r.value.precision)
      && Lookup(arg, ["pr", "f"]) == Some(r.value.f)
      && Lookup(arg, ["mcc"]) == Some(r.value.mcc)
      && Lookup(arg, ["gain"]) == Some(r.value.gain)
      && Lookup(arg, ["threshold"]) == Some(r.value.threshold)
      && Lookup(arg, ["counts", "falseNegatives"]) == Some(r.value.falseNegatives)
      && Lookup(arg, ["counts", "truePositives"]) == Some(r.value.truePositives)
      && Lookup(arg, ["counts", "trueNegatives"]) == Some(r.value.trueNegatives)
      && Lookup(arg, ["counts", "falsePositives"]) == Some(r.value.falsePositives)
    ensures r.Failure? ==>
      exists i :: FirstToFail(arg, PointFields, i) && Subscript(arg, PointFields[i]) == Failure(r.error)
  {
    var v :- SubscriptAll(arg, PointFields);
    assert Lookup(arg, PointFields[9]) == Some(v[9]);
    Success(OperatingPoint(arg, v[0], v[1], v[2], v[3], v[4], v[5], v[6], v[7], v[8], v[9]))
  }

  /** A result written in the shape the service reports an operating point. */
  function PointJson(p: OperatingPoint): Json {
    JObj(map[
      "pr" := JObj(map["recall" := p.recall, "precision" := p.precision, "f" := p.f]),
      "mcc" := p.mcc, "gain" := p.gain, "threshold" := p.threshold,
      "counts" := JObj(map[
        "falseNegatives" := p.falseNegatives, "truePositives" := p.truePositives,
        "trueNegatives" := p.trueNegatives, "falsePositives" := p.falsePositives])])
  }

  /** The ten places, named one by one, are exactly what `HasPointFields` asks for. */
  lemma PointFieldsPresent(arg: Json)
    requires Lookup(arg, ["pr", "recall"]).Some? && Lookup(arg, ["pr", "precision"]).Some?
    requires Lookup(arg, ["pr", "f"]).Some? && Lookup(arg, ["mcc"]).Some?
    requires Lookup(arg, ["gain"]).Some? && Lookup(arg, ["threshold"]).Some?
    requires Lookup(arg, ["counts", "falseNegatives"]).Some? && Lookup(arg, ["counts", "truePositives"]).Some?
    requires Lookup(arg, ["counts", "trueNegatives"]).Some? && Lookup(arg, ["counts", "falsePositives"]).Some?
    ensures HasPointFields(arg)
  {
  }

  /** Reading a written operating point back gives its ten values. */
  lemma ReadPointRoundTrip(p: OperatingPoint)
    ensures ReadPoint(PointJson(p)).Success?
    ensures ReadPoint(PointJson(p)) == Success(p.(arg := PointJson(p)))
  {
    var j := PointJson(p);
    var pr := JObj(map["recall" := p.recall, "precision" := p.precision, "f" := p.f]);
    var counts := JObj(map[
      "falseNegatives" := p.falseNegatives, "truePositives" := p.truePositives,
      "trueNegatives" := p.trueNegatives, "falsePositives" := p.falsePositives]);
    assert Member(j, "pr") == Some(pr) && Member(j, "counts") == Some(counts);
    assert Lookup(j, ["pr", "recall"]) == Some(p.recall);
    assert Lookup(j, ["pr", "precision"]) == Some(p.precision);
    assert Lookup(j, ["pr", "f"]) == Some(p.f);
    assert Lookup(j, ["mcc"]) == Some(p.mcc);
    assert Lookup(j, ["gain"]) == Some(p.gain);
    assert Lookup(j, ["threshold"]) == Some(p.threshold);
    assert Lookup(j, ["counts", "falseNegatives"]) == Some(p.falseNegatives);
    assert Lookup(j, ["counts", "truePositives"]) == Some(p.truePositives);
    assert Lookup(j, ["counts", "trueNegatives"]) == Some(p.trueNegatives);
    assert Lookup(j, ["counts", "falsePositives"]) == Some(p.falsePositives);
    PointFieldsPresent(j);
  }

  /** The three results `Test` returns: the two objects and the raw `auc`. */
  datatype Scores = Scores(bestMcc: OperatingPoint, bestF: OperatingPoint, auc: Json)

  /** The place in the response body where the first run's results sit. */
  const RunStatus: seq<string> := ["status", "firstRun", "status"]

  /** `Test(...)`: the request, then the answer `response` to it read out. A
      refused request raises `ProcedureError`. An accepted one is read in the
      order of the source: `bestMcc` is subscripted and handed to `BestMCC`
      before `bestF` is subscripted and handed to `BestF`, and `auc` comes
      last; the first of these steps that raises decides the error. */
  function RunTest(
    dataset: string, estimator: Option<Fitted>, score: Option<string>, labelExpr: Option<string>,
    outputDataset: OutputArg, response: Response): (r: Result<Scores, Error>)
    ensures TestRequest(dataset, estimator, score, labelExpr, outputDataset).Failure? ==>
      r == Failure(TestRequest(dataset, estimator, score, labelExpr, outputDataset).error)
    ensures TestRequest(dataset, estimator, score, labelExpr, outputDataset).Success? && !Created(response) ==>
      r == Failure(ProcedureError(response.content))
    ensures r.Success? ==>
      && Created(response)
      && Lookup(response.content, RunStatus + ["bestMcc"]) == Some(r.value.bestMcc.arg)
      && Lookup(response.content, RunStatus + ["bestF"]) == Some(r.value.bestF.arg)
      && Lookup(response.content, RunStatus + ["auc"]) == Some(r.value.auc)
      && ReadPoint(r.value.bestMcc.arg) == Success(r.value.bestMcc)
      && ReadPoint(r.value.bestF.arg) == Success(r.value.bestF)
    ensures TestRequest(dataset, estimator, score, labelExpr, outputDataset).Success? && Created(response) ==>
      var mcc := Subscript(response.content, RunStatus + ["bestMcc"]);
      var f := Subscript(response.content, RunStatus + ["bestF"]);
      var auc := Subscript(response.content, RunStatus + ["auc"]);
      && (r.Success? <==>
            && mcc.Success? && HasPointFields(mcc.value)
            && f.Success? && HasPointFields(f.value)
            && auc.Success?)
      && (mcc.Failure? ==> r == Failure(mcc.error))
      && (mcc.Success? && ReadPoint(mcc.value).Failure? ==>
            r == Failure(ReadPoint(mcc.value).error))
      && (mcc.Success? && HasPointFields(mcc.value) && f.Failure? ==>
            r == Failure(f.error))
      && (mcc.Success? && HasPointFields(mcc.value) && f.Success? && ReadPoint(f.value).Failure? ==>
            r == Failure(ReadPoint(f.value).error))
      && (mcc.Success? && HasPointFields(mcc.value) && f.Success? && HasPointFields(f.value) && auc.Failure? ==>
            r == Failure(auc.error))
  {
    match TestRequest(dataset, estimator, score, labelExpr, outputDataset)
    case Failure(e) => Failure(e)
    case Success(_) =>
      if !Created(response) then Failure(ProcedureError(response.content))
      else
        var mccArg :- Subscript(response.content, RunStatus + ["bestMcc"]);
        var bestMcc :- ReadPoint(mccArg);
        var fArg :- Subscript(response.content, RunStatus + ["bestF"]);
        var bestF :- ReadPoint(fArg);
        var auc :- Subscript(response.content, RunStatus + ["auc"]);
        Success(Scores(bestMcc, bestF, auc))
  }

  /** An accepted request answered with two complete operating points and an
      `auc` yields the objects built from those points and that `auc`. */
  lemma RunTestReadsScores(
    dataset: string, estimator: Option<Fitted>, score: Option<string>, labelExpr: Option<string>,
    outputDataset: OutputArg, response: Response, mcc: Json, f: Json, auc: Json)
    requires estimator.Some? || (score.Some? && labelExpr.Some?)
    requires Created(response)
    requires Lookup(response.content, RunStatus + ["bestMcc"]) == Some(mcc) && HasPointFields(mcc)
    requires Lookup(response.content, RunStatus + ["bestF"]) == Some(f) && HasPointFields(f)
    requires Lookup(response.content, RunStatus + ["auc"]) == Some(auc)
    ensures var r := RunTest(dataset, estimator, score, labelExpr, outputDataset, response);
      && r.Success?
      && r.value.bestMcc.arg == mcc && r.value.bestF.arg == f && r.value.auc == auc
      && Some(r.value.bestMcc.mcc) == Lookup(mcc, ["mcc"])
      && Some(r.value.bestF.f) == Lookup(f, ["pr", "f"])
  {
  }

  /** An accepted answer with an empty body raises `KeyError('status')`. */
  lemma RunTestEmptyBody(
    dataset: string, estimator: Option<Fitted>, score: Option<string>, labelExpr: Option<string>,
    outputDataset: OutputArg, response: Response)
    requires estimator.Some? || (score.Some? && labelExpr.Some?)
    requires Created(response) && response.content == JObj(map[])
    ensures RunTest(dataset, estimator, score, labelExpr, outputDataset, response) == Failure(KeyError("status"))
  {
    assert (RunStatus + ["bestMcc"])[1..] == ["firstRun", "status", "bestMcc"];
  }

  /** A result without `pr` makes the constructor raise at its first line. */
  lemma ReadPointWithoutPr(arg: Json)
    requires !arg.JObj? || "pr" !in arg.fields
    ensures ReadPoint(arg) == Failure(Refusal(arg, "pr"))
  {
    assert Lookup(arg, PointFields[0]).None?;
    assert SubscriptAll(arg, PointFields) == Failure(Refusal(arg, "pr"));
  }

  /** Malformed results raise inside `BestMCC` before `bestF` is looked at:
      an empty `bestMcc` raises `KeyError('pr')` and a number raises
      `TypeError`. Only a complete `bestMcc` lets a missing `bestF` raise
      `KeyError('bestF')`. */
  lemma RunTestMalformedResults(
    dataset: string, estimator: Option<Fitted>, score: Option<string>, labelExpr: Option<string>,
    outputDataset: OutputArg, response: Response, results: map<string, Json>)
    requires estimator.Some? || (score.Some? && labelExpr.Some?)
    requires Created(response)
    requires Lookup(response.content, RunStatus) == Some(JObj(results))
    ensures "bestMcc" in results && results["bestMcc"] == JObj(map[]) ==>
      RunTest(dataset, estimator, score, labelExpr, outputDataset, response) == Failure(KeyError("pr"))
    ensures "bestMcc" in results && results["bestMcc"].JNum? ==>
      RunTest(dataset, estimator, score, labelExpr, outputDataset, response) == Failure(TypeError("pr"))
    ensures "bestMcc" in results && HasPointFields(results["bestMcc"]) && "bestF" !in results ==>
      RunTest(dataset, estimator, score, labelExpr, outputDataset, response) == Failure(KeyError("bestF"))
  {
    LookupSnoc(response.content, RunStatus, "bestMcc");
    if "bestMcc" in results {
      var mccArg := results["bestMcc"];
      if mccArg == JObj(map[]) || mccArg.JNum? {
        ReadPointWithoutPr(mccArg);
      } else if HasPointFields(mccArg) && "bestF" !in results {
        SubscriptMissingKey(response.content, RunStatus, "bestF");
      }
    }
  }

  /** The params of the `classifier.experiment` payload. */
  function ExperimentParams(e: Estimator, dataset: string, features: seq<string>, labelName: string, kfold: int, name: Option<string>): map<string, Json> {
    var experimentName := if name.Some? then name.value else e.name + "_xp";
    map[
      "experimentName" := JStr(experimentName),
      "trainingData" := JStr(TrainingData(dataset, features, labelName)),
      "kfold" := JNum(kfold as real),
      "modelFileUrlPattern" := JStr("file://dt_donotcare.cls"),
      "algorithm" := JStr(AlgorithmKey(e.algorithm)),
      "configuration" := JObj(Configuration(e.algorithm)),
      "mode" := JStr(Mode),
      "outputAccuracyDataset" := JBool(true),
      "runOnCreation" := JBool(true)]
  }

  /** The PUT `experiment(estimator, dataset, X, y, kfold=0, name=None)` sends;
      the response is returned to the caller unexamined. */
  function Experiment(e: Estimator, dataset: string, features: seq<string>, labelName: string, kfold: int, name: Option<string>): (r: Request)
    ensures r.payload.JObj? && r.payload.fields.Keys == {"type", "params"}
    ensures r.payload.fields["type"] == JStr("classifier.experiment")
    ensures r.payload.fields["params"].JObj? && r.payload.fields["params"].fields.Keys == {
      "experimentName", "trainingData", "kfold", "modelFileUrlPattern", "algorithm",
      "configuration", "mode", "outputAccuracyDataset", "runOnCreation"}
    ensures var params := r.payload.fields["params"].fields;
      && params["runOnCreation"] == JBool(true)
      && params["outputAccuracyDataset"] == JBool(true)
      && params["modelFileUrlPattern"] == JStr("file://dt_donotcare.cls")
  {
    Request("/v1/procedures/dt", Procedure("classifier.experiment", ExperimentParams(e, dataset, features, labelName, kfold, name)))
  }

  /** The experiment trains on the same query, algorithm, configuration and
      mode as `fit`, and its `algorithm` is the configuration's only key
      (what `configuration.keys()[0]` picks). */
  lemma ExperimentMatchesFit(e: Estimator, dataset: string, features: seq<string>, labelName: string, kfold: int, name: Option<string>)
    ensures var xp := Experiment(e, dataset, features, labelName, kfold, name).payload.fields["params"].fields;
      var train := TrainingParams(e, dataset, features, labelName);
      && xp["trainingData"] == train["trainingData"]
      && xp["algorithm"] == train["algorithm"]
      && xp["configuration"] == train["configuration"]
      && xp["mode"] == train["mode"]
      && xp["configuration"].fields.Keys == {xp["algorithm"].s}
  {
  }

  /** `kfold` is passed through, the name defaults to the estimator's name
      with "_xp" appended, and the procedure path is fixed. */
  lemma ExperimentDefaults(e: Estimator, dataset: string, features: seq<string>, labelName: string, kfold: int, name: Option<string>)
    ensures var xp := Experiment(e, dataset, features, labelName, kfold, name).payload.fields["params"].fields;
      && xp["kfold"] == JNum(kfold as real)
      && xp["experimentName"] == JStr(if name.Some? then name.value else e.name + "_xp")
    ensures Experiment(e, dataset, features, labelName, kfold, name).path == "/v1/procedures/dt"
  {
  }
}

=== FILE: cross_validation.dfy ===
/** `train_test_split`: the two fractions are defaulted and checked, each is
    turned into a threshold on the row's hash bucket `rowHash() % 100`, and one
    `transform` request per split materialises the rows it keeps. */
module CrossValidation {
  import opened Wrappers
  import opened JsonValue
  import opened Decimal
  import opened Remote
  import opened Payloads

  /** The two fractions once defaults are filled in. */
  datatype Sizes = Sizes(test: real, train: real)

  /** The defaulting steps of `train_test_split`, in source order: with
      neither size the test size is 0.25, and a missing size becomes the
      complement of the other. */
  function ResolveSizes(test: Option<real>, train: Option<real>): (s: Sizes)
    ensures test.None? && train.None? ==> s == Sizes(0.25, 0.75)
    ensures test.Some? ==> s.test == test.value
    ensures train.Some? ==> s.train == train.value
    ensures test.Some? && train.None? ==> s.train == 1.0 - test.value
    ensures test.None? && train.Some? ==> s.test == 1.0 - train.value
  {
    var test1 := if test.None? && train.None? then Some(0.25) else test;
    var train1 := if test1.Some? && train.None? then Some(1.0 - test1.value) else train;
    var test2 := if test1.None? && train1.Some? then Some(1.0 - train1.value) else test1;
    Sizes(test2.value, train1.value)
  }

  /** Only sizes that were both given can be rejected: a filled-in size
      always makes the pair sum to exactly 1. */
  lemma DefaultedSizesSumToOne(test: Option<real>, train: Option<real>)
    requires test.None? || train.None?
    ensures ResolveSizes(test, train).test + ResolveSizes(test, train).train == 1.0
  {
  }

  /** Python's `int()` on a float: truncation toward zero. */
  function Trunc(x: real): (n: int)
    ensures 0.0 <= x ==> n as real <= x < n as real + 1.0
    ensures x < 0.0 ==> n as real - 1.0 < x <= n as real
  {
    if x >= 0.0 then x.Floor else -((-x).Floor)
  }

  lemma TruncMonotone(a: real, b: real)
    requires a <= b
    ensures Trunc(a) <= Trunc(b)
  {
  }

  /** A condition on the bucket `rowHash() % 100` of a row. */
  datatype BucketFilter = Below(bound: int) | AtLeast(bound: int)

  predicate Keeps(f: BucketFilter, bucket: int) {
    match f
    case Below(b) => bucket < b
    case AtLeast(b) => bucket >= b
  }

  /** The train split keeps buckets under `int(train_size*100)`. */
  function TrainFilter(s: Sizes): BucketFilter {
    Below(Trunc(s.train * 100.0))
  }

  /** The test split keeps buckets from `int(100 - test_size*100)` on. */
  function TestFilter(s: Sizes): BucketFilter {
    AtLeast(Trunc(100.0 - s.test * 100.0))
  }

  /** Whenever the sum check passes, no row lands in both splits. Only the sum
      matters; neither size needs to lie in [0, 1], and the claim holds for
      every bucket, not only 0..99. */
  lemma SplitsDisjoint(s: Sizes, bucket: int)
    requires s.test + s.train <= 1.0
    ensures !(Keeps(TrainFilter(s), bucket) && Keeps(TestFilter(s), bucket))
  {
    TruncMonotone(s.train * 100.0, 100.0 - s.test * 100.0);
  }

  /** When the sizes sum to exactly 1, every row lands in exactly one split. */
  lemma SplitsPartition(s: Sizes, bucket: int)
    requires s.test + s.train == 1.0
    ensures Keeps(TrainFilter(s), bucket) <==> !Keeps(TestFilter(s), bucket)
  {
    assert s.train * 100.0 == 100.0 - s.test * 100.0;
  }

  /** The defaults split at bucket 75: buckets 0..74 train, 75..99 test. */
  lemma DefaultThresholds()
    ensures TrainFilter(ResolveSizes(None, None)) == Below(75)
    ensures TestFilter(ResolveSizes(None, None)) == AtLeast(75)
  {
  }

  /** Sizes within [0, 1] give thresholds within the bucket range 0..100. */
  lemma ThresholdsInRange(s: Sizes)
    requires 0.0 <= s.test <= 1.0 && 0.0 <= s.train <= 1.0
    ensures 0 <= TrainFilter(s).bound <= 100 && 0 <= TestFilter(s).bound <= 100
  {
    TruncMonotone(0.0, s.train * 100.0);
    TruncMonotone(s.train * 100.0, 100.0);
    TruncMonotone(0.0, 100.0 - s.test * 100.0);
    TruncMonotone(100.0 - s.test * 100.0, 100.0);
  }

  /** The text of a split query up to its comparison operator. */
  function QueryPrefix(dataset: string): string {
    "SELECT * FROM " + dataset + " WHERE rowHash()%100"
  }

  /** The `inputData` query of one split (surrounding whitespace dropped). */
  function FilterQuery(dataset: string, f: BucketFilter): (q: string)
    ensures |q| > |QueryPrefix(dataset)| && q[..|QueryPrefix(dataset)|] == QueryPrefix(dataset)
  {
    QueryPrefix(dataset) + (if f.Below? then "<" else ">=") + IntToString(f.bound)
  }

  /** Recovers the bucket condition from a split query over `dataset`. */
  function ParseFilterQuery(dataset: string, q: string): Option<BucketFilter> {
    var prefix := QueryPrefix(dataset);
    if |q| < |prefix| || q[..|prefix|] != prefix then None
    else
      var rest := q[|prefix|..];
      if |rest| >= 2 && rest[..2] == ">=" then
        match ParseInt(rest[2..])
        case Some(n) => Some(AtLeast(n))
        case None => None
      else if |rest| >= 1 && rest[0] == '<' then
        match ParseInt(rest[1..])
        case Some(n) => Some(Below(n))
        case None => None
      else None
  }

  /** A split query states its bucket condition without loss. */
  lemma FilterQueryRoundTrip(dataset: string, f: BucketFilter)
    ensures ParseFilterQuery(dataset, FilterQuery(dataset, f)) == Some(f)
  {
    var q := FilterQuery(dataset, f);
    var prefix := QueryPrefix(dataset);
    var op := if f.Below? then "<" else ">=";
    assert q[|prefix|..] == op + IntToString(f.bound);
    assert (op + IntToString(f.bound))[|op|..] == IntToString(f.bound);
    IntToStringRoundTrip(f.bound);
  }

  /** Different bucket conditions give different queries. */
  lemma FilterQueryInjective(dataset: string, f: BucketFilter, g: BucketFilter)
    ensures FilterQuery(dataset, f) == FilterQuery(dataset, g) <==> f == g
  {
    if FilterQuery(dataset, f) == FilterQuery(dataset, g) {
      FilterQueryRoundTrip(dataset, f);
      FilterQueryRoundTrip(dataset, g);
    }
  }

  /** The PUT that materialises one split as dataset `name`. */
  function SplitRequest(dataset: string, f: BucketFilter, name: string): Request {
    Request("/v1/procedures/train_test_split",
            TransformPayload(Transform(FilterQuery(dataset, f), Name(name), true)))
  }

  /** The requests issued, in order, and what the call returns or raises. */
  datatype SplitRun = SplitRun(requests: seq<Request>, outcome: Result<(string, string), Error>)

  /** `train_test_split(dataset, test_size, train_size)`. `trainHex` and
      `testHex` stand for the two `uuid4().hex` values and `first`, `second`
      for the service's answers to the two requests. */
  function PlanSplit(
    dataset: string, test: Option<real>, train: Option<real>,
    trainHex: string, testHex: string, first: Response, second: Response): (run: SplitRun)
    ensures var s := ResolveSizes(test, train);
      s.test + s.train > 1.0 <==> run.outcome == Failure(ValueError)
    ensures run.outcome == Failure(ValueError) ==> run.requests == []
    ensures run.outcome.Success? <==>
      ResolveSizes(test, train).test + ResolveSizes(test, train).train <= 1.0 && Created(first) && Created(second)
    ensures run.outcome.Success? ==> run.outcome.value == ("d" + trainHex, "d" + testHex)
    ensures run.outcome != Failure(ValueError) ==> |run.requests| == (if Created(first) then 2 else 1)
    ensures |run.requests| >= 1 ==>
      run.requests[0] == SplitRequest(dataset, TrainFilter(ResolveSizes(test, train)), "d" + trainHex)
    ensures |run.requests| == 2 ==>
      run.requests[1] == SplitRequest(dataset, TestFilter(ResolveSizes(test, train)), "d" + testHex)
    ensures run.outcome.Failure? && run.outcome.error != ValueError ==>
      run.outcome.error == RequestFailed(if Created(first) then second.content else first.content)
  {
    var s := ResolveSizes(test, train);
    if s.test + s.train > 1.0 then SplitRun([], Failure(ValueError))
    else
      var trainName := "d" + trainHex;
      var trainRequest := SplitRequest(dataset, TrainFilter(s), trainName);
      if !Created(first) then SplitRun([trainRequest], Failure(RequestFailed(first.content)))
      else
        var testName := "d" + testHex;
        var testRequest := SplitRequest(dataset, TestFilter(s), testName);
        if !Created(second) then SplitRun([trainRequest, testRequest], Failure(RequestFailed(second.content)))
        else SplitRun([trainRequest, testRequest], Success((trainName, testName)))
  }

  /** Only the sum of the sizes is checked: a negative test size with a
      train size above 1 is accepted when they add up to at most 1. */
  lemma RangeNotChecked(dataset: string, trainHex: string, testHex: string, ok: Response)
    requires Created(ok)
    ensures PlanSplit(dataset, Some(-0.5), Some(1.5), trainHex, testHex, ok, ok).outcome.Success?
    ensures TrainFilter(Sizes(-0.5, 1.5)) == Below(150) && TestFilter(Sizes(-0.5, 1.5)) == AtLeast(150)
  {
    assert ResolveSizes(Some(-0.5), Some(1.5)) == Sizes(-0.5, 1.5);
  }
}

=== FILE: decimal.dfy ===
/** Python's `str()` of an integer, as it is spliced into query text, together
    with the parser that inverts it. */
module Decimal {
  import opened Wrappers

  predicate IsDigit(c: char) {
    '0' <= c <= '9'
  }

  predicate AllDigits(s: string) {
    forall i :: 0 <= i < |s| ==> IsDigit(s[i])
  }

  function DigitChar(d: nat): (c: char)
    requires d < 10
    ensures IsDigit(c) && c as int - '0' as int == d
  {
    ('0' as int + d) as char
  }

  function DigitValue(c: char): nat
    requires IsDigit(c)
  {
    c as int - '0' as int
  }

  /** The decimal digits of `n`, most significant first, without leading zeros. */
  function NatToString(n: nat): (s: string)
    ensures |s| >= 1 && AllDigits(s)
    decreases n
  {
    if n < 10 then [DigitChar(n)] else NatToString(n / 10) + [DigitChar(n % 10)]
  }

  /** `str(n)` for a Python integer: a minus sign exactly for negative values. */
  function IntToString(n: int): (s: string)
    ensures |s| >= 1
    ensures s[0] == '-' <==> n < 0
  {
    if n < 0 then "-" + NatToString(-n) else NatToString(n)
  }

  /** The value of a digit string, read most significant digit first. */
  function DigitsValue(s: string): nat
    requires AllDigits(s)
    decreases |s|
  {
    if |s| == 0 then 0 else DigitsValue(s[..|s| - 1]) * 10 + DigitValue(s[|s| - 1])
  }

  /** Reads an optional minus sign followed by at least one digit. */
  function ParseInt(s: string): Option<int> {
    if |s| >= 2 && s[0] == '-' && AllDigits(s[1..]) then Some(-(DigitsValue(s[1..]) as int))
    else if |s| >= 1 && AllDigits(s) then Some(DigitsValue(s) as int)
    else None
  }

  lemma {:induction false} NatToStringRoundTrip(n: nat)
    ensures DigitsValue(NatToString(n)) == n
    decreases n
  {
    if n >= 10 {
      var s := NatToString(n);
      assert s[..|s| - 1] == NatToString(n / 10);
      NatToStringRoundTrip(n / 10);
    }
  }

  /** Rendering an integer loses nothing: parsing the text gives it back. */
  lemma IntToStringRoundTrip(n: int)
    ensures ParseInt(IntToString(n)) == Some(n)
  {
    if n < 0 {
      NatToStringRoundTrip(-n);
      assert IntToString(n)[1..] == NatToString(-n);
    } else {
      NatToStringRoundTrip(n);
    }
  }

  /** Distinct integers render as distinct text. */
  lemma IntToStringInjective(a: int, b: int)
    ensures IntToString(a) == IntToString(b) <==> a == b
  {
    IntToStringRoundTrip(a);
    IntToStringRoundTrip(b);
  }
}

=== FILE: estimators.dfy ===
/** The three estimators of ensemble.py, linear_model.py and tree.py. Each
    holds a one-entry configuration record, trains through a
    `classifier.train` procedure named after the estimator, and predicts
    through a `transform` that applies the trained function. */
module Estimators {
  import opened Wrappers
  import opened JsonValue
  import opened Joining
  import opened Remote
  import opened Payloads

  /** The algorithm and its hyper-parameters, as each constructor stores them. */
  datatype Algorithm =
    | RandomForest(nEstimators: int, maxDepth: int, randomFeaturePropn: real, updateAlg: string)
    | LogisticRegression(fitIntercept: bool, ridgeRegression: bool, featureProportion: real)
    | DecisionTree(maxDepth: int, randomFeaturePropn: real, updateAlg: string)

  /** An estimator; `name` is both its procedure name and its function name. */
  datatype Estimator = Estimator(algorithm: Algorithm, name: string)

  /** An estimator after `fit`, which records the feature list and the label column. */
  datatype Fitted = Fitted(estimator: Estimator, features: seq<string>, labelName: string)

  /** Every estimator trains in boolean mode. */
  const Mode := "boolean"

  /** `RandomForestClassifier(n_estimators=10, max_depth=-1, random_feature_propn=1,
      update_alg="gentle", name="RandomForestClassifier")`. */
  function NewRandomForest(nEstimators: int, maxDepth: int, randomFeaturePropn: real, updateAlg: string, name: string): Estimator {
    Estimator(RandomForest(nEstimators, maxDepth, randomFeaturePropn, updateAlg), name)
  }

  const DefaultRandomForest := NewRandomForest(10, -1, 1.0, "gentle", "RandomForestClassifier")

  /** `LogisticRegression(fit_intercept=True, ridge_regression=True,
      feature_proportion=1.0, name="LogisticRegression")`: a proportion
      outside [0, 1] raises `ValueError`. */
  function NewLogisticRegression(fitIntercept: bool, ridgeRegression: bool, featureProportion: real, name: string): (r: Result<Estimator, Error>)
    ensures r.Success? <==> 0.0 <= featureProportion <= 1.0
    ensures r.Failure? ==> r.error == ValueError
    ensures r.Success? ==> r.value == Estimator(LogisticRegression(fitIntercept, ridgeRegression, featureProportion), name)
  {
    if featureProportion < 0.0 || featureProportion > 1.0 then Failure(ValueError)
    else Success(Estimator(LogisticRegression(fitIntercept, ridgeRegression, featureProportion), name))
  }

  /** `DecisionTreeClassifier(max_depth=-1, random_feature_propn=1,
      update_alg="prob", name="DecisionTreeClassifier")`. */
  function NewDecisionTree(maxDepth: int, randomFeaturePropn: real, updateAlg: string, name: string): Estimator {
    Estimator(DecisionTree(maxDepth, randomFeaturePropn, updateAlg), name)
  }

  const DefaultDecisionTree := NewDecisionTree(-1, 1.0, "prob", "DecisionTreeClassifier")

  /** The name of the only configuration entry, which is also the
      `algorithm` a training request names. */
  function AlgorithmKey(a: Algorithm): string {
    match a
    case RandomForest(_, _, _, _) => "rf"
    case LogisticRegression(_, _, _) => "logisticRegression"
    case DecisionTree(_, _, _) => "dt"
  }

  /** A Python `int` as a JSON number. */
  function JInt(n: int): Json {
    JNum(n as real)
  }

  /** The `_note` of the logistic regression entry, line breaks and indentation included. */
  const LogisticNote :=
    "\n                    Logistic Regression.\n                    Very smooth but needs very good features"

  /** The body of the configuration entry. */
  function ConfigurationEntry(a: Algorithm): map<string, Json> {
    match a
    case RandomForest(nEstimators, maxDepth, randomFeaturePropn, updateAlg) =>
      map[
        "_note" := JStr("random forest"),
        "type" := JStr("bagging"),
        "verbosity" := JInt(3),
        "weak_learner" := JObj(map[
          "type" := JStr("decision_tree"),
          "max_depth" := JInt(maxDepth),
          "verbosity" := JInt(0),
          "update_alg" := JStr(updateAlg),
          "random_feature_propn" := JNum(randomFeaturePropn)]),
        "num_bags" := JInt(nEstimators)]
    case LogisticRegression(fitIntercept, ridgeRegression, featureProportion) =>
      map[
        "_note" := JStr(LogisticNote),
        "type" := JStr("glz"),
        "verbosity" := JInt(3),
        "feature_proportion" := JNum(featureProportion),
        "add_bias" := JBool(fitIntercept),
        "ridge_regression" := JBool(ridgeRegression)]
    case DecisionTree(maxDepth, randomFeaturePropn, updateAlg) =>
      map[
        "_note" := JStr("Plain decision tree"),
        "type" := JStr("decision_tree"),
        "max_depth" := JInt(maxDepth),
        "verbosity" := JInt(3),
        "update_alg" := JStr(updateAlg),
        "random_feature_propn" := JNum(randomFeaturePropn)]
  }

  /** The `configuration` attribute: a single entry keyed by the algorithm. */
  function Configuration(a: Algorithm): (c: map<string, Json>)
    ensures c.Keys == {AlgorithmKey(a)}
  {
    map[AlgorithmKey(a) := JObj(ConfigurationEntry(a))]
  }

  function AsInt(j: Option<Json>): Option<int> {
    if j.Some? && j.value.JNum? && j.value.n == j.value.n.Floor as real then Some(j.value.n.Floor) else None
  }

  function AsReal(j: Option<Json>): Option<real> {
    if j.Some? && j.value.JNum? then Some(j.value.n) else None
  }

  function AsString(j: Option<Json>): Option<string> {
    if j.Some? && j.value.JStr? then Some(j.value.s) else None
  }

  function AsBool(j: Option<Json>): Option<bool> {
    if j.Some? && j.value.JBool? then Some(j.value.b) else None
  }

  /** The fixed `type` of each configuration entry: the forest is a bagging
      of decision trees, the logistic regression a generalised linear model. */
  function EntryType(a: Algorithm): string {
    match a
    case RandomForest(_, _, _, _) => "bagging"
    case LogisticRegression(_, _, _) => "glz"
    case DecisionTree(_, _, _) => "decision_tree"
  }

  /** A guard for `:-` inside a reader: `None`, which stops the read, unless
      the value at `path` is `expected`. The `bool` it carries is unused. */
  function Fixed(doc: Json, path: seq<string>, expected: Json): (r: Option<bool>)
    ensures r.Some? <==> Lookup(doc, path) == Some(expected)
  {
    if Lookup(doc, path) != Some(expected) then None else Some(true)
  }

  /** Reads the algorithm and its hyper-parameters back from a configuration;
      an entry whose `type` is not the one its key fixes is not read. */
  function ReadConfiguration(c: map<string, Json>): (r: Option<Algorithm>)
    ensures r.Some? ==> AlgorithmKey(r.value) in c
    ensures r.Some? ==> Lookup(JObj(c), [AlgorithmKey(r.value), "type"]) == Some(JStr(EntryType(r.value)))
    ensures r.Some? && r.value.RandomForest? ==>
      Lookup(JObj(c), ["rf", "weak_learner", "type"]) == Some(JStr("decision_tree"))
  {
    var doc := JObj(c);
    if "rf" in c then
      var _ :- Fixed(doc, ["rf", "type"], JStr("bagging"));
      var _ :- Fixed(doc, ["rf", "weak_learner", "type"], JStr("decision_tree"));
      var nEstimators :- AsInt(Lookup(doc, ["rf", "num_bags"]));
      var maxDepth :- AsInt(Lookup(doc, ["rf", "weak_learner", "max_depth"]));
      var propn :- AsReal(Lookup(doc, ["rf", "weak_learner", "random_feature_propn"]));
      var updateAlg :- AsString(Lookup(doc, ["rf", "weak_learner", "update_alg"]));
      Some(RandomForest(nEstimators, maxDepth, propn, updateAlg))
    else if "logisticRegression" in c then
      var _ :- Fixed(doc, ["logisticRegression", "type"], JStr("glz"));
      var fitIntercept :- AsBool(Lookup(doc, ["logisticRegression", "add_bias"]));
      var ridge :- AsBool(Lookup(doc, ["logisticRegression", "ridge_regression"]));
      var propn :- AsReal(Lookup(doc, ["logisticRegression", "feature_proportion"]));
      Some(LogisticRegression(fitIntercept, ridge, propn))
    else if "dt" in c then
      var _ :- Fixed(doc, ["dt", "type"], JStr("decision_tree"));
      var maxDepth :- AsInt(Lookup(doc, ["dt", "max_depth"]));
      var propn :- AsReal(Lookup(doc, ["dt", "random_feature_propn"]));
      var updateAlg :- AsString(Lookup(doc, ["dt", "update_alg"]));
      Some(DecisionTree(maxDepth, propn, updateAlg))
    else None
  }

  /** The configuration records every hyper-parameter the constructor was
      given, under the entry `type` that its algorithm fixes. */
  lemma ConfigurationRoundTrip(a: Algorithm)
    ensures ReadConfiguration(Configuration(a)) == Some(a)
  {
    match a
    case RandomForest(_, _, _, _) => ForestRoundTrip(a);
    case LogisticRegression(_, _, _) => LogisticRoundTrip(a);
    case DecisionTree(_, _, _) => TreeRoundTrip(a);
  }

  lemma ForestRoundTrip(a: Algorithm)
    requires a.RandomForest?
    ensures ReadConfiguration(Configuration(a)) == Some(a)
  {
    var doc := JObj(Configuration(a));
    var entry := JObj(ConfigurationEntry(a));
    var learner := entry.fields["weak_learner"];
    assert Lookup(doc, ["rf"]) == Some(entry);
    assert Lookup(doc, ["rf", "type"]) == Lookup(entry, ["type"]);
    assert Lookup(doc, ["rf", "weak_learner", "type"]) == Lookup(learner, ["type"]);
    assert Lookup(doc, ["rf", "num_bags"]) == Lookup(entry, ["num_bags"]);
    assert Lookup(doc, ["rf", "weak_learner", "max_depth"]) == Lookup(learner, ["max_depth"]);
    assert Lookup(doc, ["rf", "weak_learner", "random_feature_propn"]) == Lookup(learner, ["random_feature_propn"]);
    assert Lookup(doc, ["rf", "weak_learner", "update_alg"]) == Lookup(learner, ["update_alg"]);
  }

  lemma LogisticRoundTrip(a: Algorithm)
    requires a.LogisticRegression?
    ensures ReadConfiguration(Configuration(a)) == Some(a)
  {
    var doc := JObj(Configuration(a));
    var entry := JObj(ConfigurationEntry(a));
    assert Lookup(doc, ["logisticRegression"]) == Some(entry);
    assert Lookup(doc, ["logisticRegression", "type"]) == Lookup(entry, ["type"]);
    assert Lookup(doc, ["logisticRegression", "add_bias"]) == Lookup(entry, ["add_bias"]);
    assert Lookup(doc, ["logisticRegression", "ridge_regression"]) == Lookup(entry, ["ridge_regression"]);
    assert Lookup(doc, ["logisticRegression", "feature_proportion"]) == Lookup(entry, ["feature_proportion"]);
  }

  lemma TreeRoundTrip(a: Algorithm)
    requires a.DecisionTree?
    ensures ReadConfiguration(Configuration(a)) == Some(a)
  {
    var doc := JObj(Configuration(a));
    var entry := JObj(ConfigurationEntry(a));
    assert Lookup(doc, ["dt"]) == Some(entry);
    assert Lookup(doc, ["dt", "type"]) == Lookup(entry, ["type"]);
    assert Lookup(doc, ["dt", "max_depth"]) == Lookup(entry, ["max_depth"]);
    assert Lookup(doc, ["dt", "random_feature_propn"]) == Lookup(entry, ["random_feature_propn"]);
    assert Lookup(doc, ["dt", "update_alg"]) == Lookup(entry, ["update_alg"]);
  }

  /** The default forest bags 10 unbounded trees grown with "gentle"
      updates over all features; the default tree is unbounded and uses
      "prob" updates. */
  lemma DefaultConfigurations()
    ensures var c := Configuration(DefaultRandomForest.algorithm);
      && Lookup(JObj(c), ["rf", "type"]) == Some(JStr("bagging"))
      && Lookup(JObj(c), ["rf", "num_bags"]) == Some(JNum(10.0))
      && Lookup(JObj(c), ["rf", "weak_learner", "type"]) == Some(JStr("decision_tree"))
      && Lookup(JObj(c), ["rf", "weak_learner", "max_depth"]) == Some(JNum(-1.0))
      && Lookup(JObj(c), ["rf", "weak_learner", "update_alg"]) == Some(JStr("gentle"))
      && Lookup(JObj(c), ["rf", "weak_learner", "random_feature_propn"]) == Some(JNum(1.0))
    ensures var c := Configuration(DefaultDecisionTree.algorithm);
      && Lookup(JObj(c), ["dt", "type"]) == Some(JStr("decision_tree"))
      && Lookup(JObj(c), ["dt", "max_depth"]) == Some(JNum(-1.0))
      && Lookup(JObj(c), ["dt", "update_alg"]) == Some(JStr("prob"))
  {
  }

  /** The `trainingData` query of `fit` (whitespace collapsed): the features
      as a row inside braces, the label column, the dataset. */
  function TrainingData(dataset: string, features: seq<string>, labelName: string): string {
    "SELECT {" + Join(",", features) + "} as features, " + labelName + " as label FROM " + dataset
  }

  /** The feature list sits verbatim right after "SELECT {", and when no
      feature name contains a comma it can be split back into the list. */
  lemma TrainingDataFeatures(dataset: string, features: seq<string>, labelName: string)
    requires |features| >= 1
    requires forall i :: 0 <= i < |features| ==> ',' !in features[i]
    ensures var q := TrainingData(dataset, features, labelName);
      var joined := Join(",", features);
      && |q| >= 8 + |joined|
      && q[..8] == "SELECT {"
      && Split(',', q[8..8 + |joined|]) == features
  {
    var joined := Join(",", features);
    var q := TrainingData(dataset, features, labelName);
    assert q == "SELECT {" + (joined + ("} as features, " + labelName + " as label FROM " + dataset));
    assert q[8..8 + |joined|] == joined;
    SplitJoin(',', features);
  }

  /** The params of the `classifier.train` payload `fit` builds. */
  function TrainingParams(e: Estimator, dataset: string, features: seq<string>, labelName: string): (p: map<string, Json>)
    ensures p.Keys == {"trainingData", "algorithm", "configuration", "mode", "modelFileUrl", "functionName", "runOnCreation"}
    ensures p["trainingData"] == JStr(TrainingData(dataset, features, labelName))
    ensures p["runOnCreation"] == JBool(true)
  {
    map[
      "trainingData" := JStr(TrainingData(dataset, features, labelName)),
      "algorithm" := JStr(AlgorithmKey(e.algorithm)),
      "configuration" := JObj(Configuration(e.algorithm)),
      "mode" := JStr(Mode),
      "modelFileUrl" := JStr("file://donotcare.cls"),
      "functionName" := JStr(e.name),
      "runOnCreation" := JBool(true)]
  }

  /** What `fit` sends, and the estimator as it stands afterwards. */
  datatype FitRun = FitRun(request: Request, outcome: Result<Fitted, Error>)

  /** `estimator.fit(dataset, X, y)`; `response` is the service's answer. */
  function Fit(e: Estimator, dataset: string, features: seq<string>, labelName: string, response: Response): (run: FitRun)
    ensures run.request.path == "/v1/procedures/" + e.name
    ensures run.request.payload == Procedure("classifier.train", TrainingParams(e, dataset, features, labelName))
    ensures run.outcome.Success? <==> Created(response)
    ensures run.outcome.Success? ==> run.outcome.value == Fitted(e, features, labelName)
    ensures run.outcome.Failure? ==> run.outcome.error == RequestFailed(response.content)
  {
    var request := Request("/v1/procedures/" + e.name, Procedure("classifier.train", TrainingParams(e, dataset, features, labelName)));
    if Created(response) then FitRun(request, Success(Fitted(e, features, labelName)))
    else FitRun(request, Failure(RequestFailed(response.content)))
  }

  /** The training request names the algorithm whose entry the configuration
      holds, in boolean mode, under the estimator's own function name. */
  lemma TrainingAlgorithmMatchesConfiguration(e: Estimator, dataset: string, features: seq<string>, labelName: string)
    ensures var p := TrainingParams(e, dataset, features, labelName);
      && p["algorithm"].JStr? && p["configuration"].JObj?
      && p["configuration"].fields.Keys == {p["algorithm"].s}
      && ReadConfiguration(p["configuration"].fields) == Some(e.algorithm)
      && p["mode"] == JStr("boolean") && p["functionName"] == JStr(e.name)
  {
    ConfigurationRoundTrip(e.algorithm);
  }

  /** The `inputData` of the predict transform: the trained function applied
      to the feature row. The `{{` is kept doubled, because `%` formatting
      leaves braces alone. */
  function PredictQuery(functionName: string, features: seq<string>, dataset: string): (q: string)
    ensures var head := "SELECT " + functionName + "({{";
      var joined := Join(",", features);
      && |q| >= |head| + |joined| + |dataset|
      && q[..|head|] == head
      && q[|head|..|head| + |joined|] == joined
      && q[|q| - |dataset|..] == dataset
    ensures var head := "SELECT " + functionName + "({{";
      var joined := Join(",", features);
      (|features| >= 1 && forall i :: 0 <= i < |features| ==> ',' !in features[i]) ==>
      Split(',', q[|head|..|head| + |joined|]) == features
  {
    var head := "SELECT " + functionName + "({{";
    var joined := Join(",", features);
    var tail := "} as features}) as predict FROM " + dataset;
    var q := head + (joined + tail);
    assert q[|head|..|head| + |joined|] == joined;
    assert q[|q| - |dataset|..] == tail[|tail| - |dataset|..];
    if |features| >= 1 && forall i :: 0 <= i < |features| ==> ',' !in features[i] then
      SplitJoin(',', features);
      q
    else q
  }

  /** The name of the prediction dataset: random forests and trees use the
      given name if any; a random forest or a logistic regression otherwise
      uses "d" and a uuid hex, a tree a generated name. Logistic regression
      takes no name at all. */
  function PredictName(a: Algorithm, given: Option<string>, freshName: string): (name: string)
    requires a.LogisticRegression? ==> given.None?
    ensures given.Some? ==> name == given.value
    ensures given.None? && !a.DecisionTree? ==> name == "d" + freshName
    ensures given.None? && a.DecisionTree? ==> name == freshName
  {
    if given.Some? then given.value
    else if a.DecisionTree? then freshName
    else "d" + freshName
  }

  /** What `predict` sends, and the name it returns or the error it raises. */
  datatype PredictRun = PredictRun(request: Request, outcome: Result<string, Error>)

  /** `estimator.predict(dataset, predict_set_name)` on a fitted estimator. */
  function Predict(m: Fitted, dataset: string, given: Option<string>, freshName: string, response: Response): (run: PredictRun)
    requires m.estimator.algorithm.LogisticRegression? ==> given.None?
    ensures run.request.path == "/v1/procedures/train_test_split"
    ensures var params := TransformParams(Transform(
        PredictQuery(m.estimator.name, m.features, dataset),
        Name(PredictName(m.estimator.algorithm, given, freshName)), true));
      run.request.payload == Procedure("transform", params)
    ensures run.outcome.Success? <==> Created(response)
    ensures run.outcome.Success? ==> run.outcome.value == PredictName(m.estimator.algorithm, given, freshName)
    ensures run.outcome.Failure? ==> run.outcome.error == RequestFailed(response.content)
  {
    var name := PredictName(m.estimator.algorithm, given, freshName);
    var query := PredictQuery(m.estimator.name, m.features, dataset);
    var request := Request("/v1/procedures/train_test_split", TransformPayload(Transform(query, Name(name), true)));
    if Created(response) then PredictRun(request, Success(name))
    else PredictRun(request, Failure(RequestFailed(response.content)))
  }

  /** The name `predict` returns is the id of the tabular dataset its
      transform writes. */
  lemma PredictWritesReturnedName(m: Fitted, dataset: string, given: Option<string>, freshName: string, response: Response)
    requires m.estimator.algorithm.LogisticRegression? ==> given.None?
    requires Created(response)
    ensures var run := Predict(m, dataset, given, freshName, response);
      && run.outcome.Success?
      && run.request.payload.fields["params"].fields["outputDataset"] == TabularDescriptor(JStr(run.outcome.value))
  {
  }
}

=== FILE: files.dfy ===
/** The file name a `Dataset` wrapper reads and writes: its directory joined
    with the dataset name, then a dot and an extension that follows the
    compression. */
module Files {
  import opened Wrappers

  /** `Dataset(dataset, compression=None)`; the constructor sets `dir` to "". */
  datatype Dataset = Dataset(dataset: string, dir: string, compression: Option<string>)

  function NewDataset(dataset: string, compression: Option<string>): (d: Dataset)
    ensures d.dataset == dataset && d.compression == compression && d.dir == ""
  {
    Dataset(dataset, "", compression)
  }

  /** `os.path.join(a, b)` for two parts on POSIX: an absolute `b` replaces
      `a`, otherwise `b` is appended after a separator unless `a` is empty or
      already ends in one. */
  function PathJoin(a: string, b: string): (r: string)
    ensures |b| > 0 && b[0] == '/' ==> r == b
    ensures |r| >= |b| && r[|r| - |b|..] == b
    ensures (|b| == 0 || b[0] != '/') && a != "" && a[|a| - 1] != '/' ==> r == a + "/" + b
    ensures (|b| == 0 || b[0] != '/') && (a == "" || a[|a| - 1] == '/') ==> r == a + b
  {
    if |b| > 0 && b[0] == '/' then b
    else if a == "" || a[|a| - 1] == '/' then a + b
    else a + "/" + b
  }

  /** The `extension` property: "gz" is spelled "gzip", no compression means
      a plain "csv" file, and any other compression names itself. */
  function Extension(d: Dataset): (e: string)
    ensures e != "gz"
    ensures d.compression.None? ==> e == "csv"
    ensures d.compression.Some? && d.compression.value != "gz" ==> e == d.compression.value
  {
    match d.compression
    case Some(c) => if c == "gz" then "gzip" else c
    case None => "csv"
  }

  /** The `file_path` property. */
  function FilePath(d: Dataset): (path: string)
    ensures |path| > |Extension(d)|
  {
    PathJoin(d.dir, d.dataset) + "." + Extension(d)
  }

  /** Only "gz" and "gzip" give a gzip file, only no compression and "csv"
      give a csv file, and every other compression is told apart. */
  lemma ExtensionAgrees(a: Dataset, b: Dataset)
    ensures Extension(a) == Extension(b) <==>
      || a.compression == b.compression
      || (a.compression in {Some("gz"), Some("gzip")} && b.compression in {Some("gz"), Some("gzip")})
      || (a.compression in {None, Some("csv")} && b.compression in {None, Some("csv")})
  {
  }

  lemma ExtensionGzip(d: Dataset)
    ensures Extension(d) == "gzip" <==> d.compression == Some("gz") || d.compression == Some("gzip")
    ensures Extension(d) == "csv" <==> d.compression == None || d.compression == Some("csv")
  {
  }

  /** The path splits back into the joined name and the extension. */
  lemma FilePathParts(d: Dataset)
    ensures var path := FilePath(d);
      && path[|path| - |Extension(d)|..] == Extension(d)
      && path[|path| - |Extension(d)| - 1] == '.'
      && path[..|path| - |Extension(d)| - 1] == PathJoin(d.dir, d.dataset)
  {
    var e := Extension(d);
    var j := PathJoin(d.dir, d.dataset);
    assert FilePath(d) == j + "." + e;
    assert (j + "." + e)[..|j|] == j;
  }

  /** A freshly built dataset lives in the working directory: its path is its
      name, a dot and the extension, whether the name is relative or absolute. */
  lemma NewDatasetPath(dataset: string, compression: Option<string>)
    ensures FilePath(NewDataset(dataset, compression)) == dataset + "." + Extension(NewDataset(dataset, compression))
  {
  }
}

=== FILE: joining.dfy ===
/** Python's `sep.join(xs)`, used to splice feature lists and sub-queries into
    query text, and `s.split(c)` for a one-character separator, which undoes it. */
module Joining {

  /** `sep.join(xs)`: the items in order with `sep` between neighbours. */
  function Join(sep: string, xs: seq<string>): (s: string)
    ensures |xs| == 0 ==> s == ""
    ensures |xs| >= 1 ==> |s| >= |xs[0]| && s[..|xs[0]|] == xs[0]
    decreases |xs|
  {
    if |xs| == 0 then ""
    else if |xs| == 1 then xs[0]
    else xs[0] + sep + Join(sep, xs[1..])
  }

  /** `s.split(c)`: the maximal runs of `s` free of `c`, always at least one. */
  function Split(c: char, s: string): (parts: seq<string>)
    ensures |parts| >= 1
    decreases |s|
  {
    if |s| == 0 then [""]
    else
      var rest := Split(c, s[1..]);
      if s[0] == c then [""] + rest else [[s[0]] + rest[0]] + rest[1..]
  }

  lemma {:induction false} SplitWithout(c: char, a: string)
    requires c !in a
    ensures Split(c, a) == [a]
    decreases |a|
  {
    if |a| > 0 {
      SplitWithout(c, a[1..]);
      assert [a[0]] + a[1..] == a;
    }
  }

  lemma {:induction false} SplitAfterFirst(c: char, a: string, b: string)
    requires c !in a
    ensures Split(c, a + [c] + b) == [a] + Split(c, b)
    decreases |a|
  {
    if |a| == 0 {
      assert a + [c] + b == [c] + b;
      assert ([c] + b)[1..] == b;
    } else {
      var s := a + [c] + b;
      assert s[1..] == a[1..] + [c] + b;
      SplitAfterFirst(c, a[1..], b);
      assert [a[0]] + a[1..] == a;
    }
  }

  /** Joining items that do not contain the separator and splitting again gives
      the items back, in order. */
  lemma {:induction false} SplitJoin(c: char, xs: seq<string>)
    requires |xs| >= 1
    requires forall i :: 0 <= i < |xs| ==> c !in xs[i]
    ensures Split(c, Join([c], xs)) == xs
    decreases |xs|
  {
    if |xs| == 1 {
      SplitWithout(c, xs[0]);
    } else {
      SplitJoin(c, xs[1..]);
      SplitAfterFirst(c, xs[0], Join([c], xs[1..]));
      assert [xs[0]] + xs[1..] == xs;
    }
  }
}

=== FILE: json.dfy ===
/** The JSON-like values that request payloads are built from. */
module JsonValue {
  import opened Wrappers

  /** A JSON value. JSON has a single number type, so Python `int` and `float`
      arguments both become `JNum`. Objects are unordered, like Python dicts. */
  datatype Json =
    | JNull
    | JBool(b: bool)
    | JNum(n: real)
    | JStr(s: string)
    | JArr(items: seq<Json>)
    | JObj(fields: map<string, Json>)

  /** `doc[key]` on a parsed document: absent when `doc` is not an object or
      has no such key. */
  function Member(doc: Json, key: string): (r: Option<Json>)
    ensures r.Some? <==> doc.JObj? && key in doc.fields
    ensures r.Some? ==> r.value == doc.fields[key]
  {
    if doc.JObj? && key in doc.fields then Some(doc.fields[key]) else None
  }

  /** `doc[k0][k1]...` along a path of keys. */
  function Lookup(doc: Json, path: seq<string>): (r: Option<Json>)
    decreases |path|
  {
    if |path| == 0 then Some(doc)
    else match Member(doc, path[0])
      case None => None
      case Some(child) => Lookup(child, path[1..])
  }

  /** Looking up one more key is a member access on what the path led to. */
  lemma {:induction false} LookupSnoc(doc: Json, path: seq<string>, key: string)
    ensures Lookup(doc, path + [key])
         == if Lookup(doc, path).Some? then Member(Lookup(doc, path).value, key) else None
    decreases |path|
  {
    if |path| == 0 {
      assert path + [key] == [key];
      assert [key][1..] == [];
    } else {
      assert (path + [key])[0] == path[0];
      assert (path + [key])[1..] == path[1..] + [key];
      if Member(doc, path[0]).Some? {
        LookupSnoc(Member(doc, path[0]).value, path[1..], key);
      }
    }
  }

  /** A procedure description: `{"type": kind, "params": params}`. */
  function Procedure(kind: string, params: map<string, Json>): (r: Json)
    ensures r.JObj? && r.fields.Keys == {"type", "params"}
    ensures r.fields["type"] == JStr(kind) && r.fields["params"] == JObj(params)
  {
    JObj(map["type" := JStr(kind), "params" := JObj(params)])
  }
}

=== FILE: payloads.dfy ===
/** The payload serialisers of utils.py and procedures.py: output-dataset
    specifications, the `transform`, `import.text` and `export.csv` procedures.
    Each maps its constructor arguments to a JSON object. */
module Payloads {
  import opened Wrappers
  import opened JsonValue

  /** An `OutputDataset(id, type=None, **params)`. Keyword params always form a
      dict, so there is no "params missing" case. */
  datatype OutputDatasetSpec = OutputDatasetSpec(id: Json, datasetType: Json, params: map<string, Json>)

  /** Calling a spec yields a payload, and for the tabular type it also rewrites
      the spec's own params; `after` is the spec as it stands after the call. */
  datatype Called = Called(payload: map<string, Json>, after: OutputDatasetSpec)

  const Tabular := JStr("tabular")

  /** `OutputDataset.__call__`. */
  function CallOutputDataset(spec: OutputDatasetSpec): (c: Called)
    ensures "id" in c.payload && c.payload["id"] == spec.id
    ensures "type" in c.payload <==> spec.datasetType != JNull
    ensures "type" in c.payload ==> c.payload["type"] == spec.datasetType
    ensures "params" in c.payload && c.payload["params"] == JObj(c.after.params)
    ensures c.payload.Keys <= {"id", "type", "params"}
    ensures c.after.id == spec.id && c.after.datasetType == spec.datasetType
    ensures spec.datasetType == Tabular ==>
      && c.after.params.Keys == spec.params.Keys + {"unknownColumns"}
      && c.after.params["unknownColumns"] == JStr("add")
    ensures spec.datasetType != Tabular ==> c.after.params == spec.params
    ensures forall k :: k in spec.params && k != "unknownColumns" ==>
      k in c.after.params && c.after.params[k] == spec.params[k]
  {
    var params :=
      if spec.datasetType == Tabular then spec.params["unknownColumns" := JStr("add")]
      else spec.params;
    var payload := map["id" := spec.id, "params" := JObj(params)];
    var payload := if spec.datasetType != JNull then payload["type" := spec.datasetType] else payload;
    Called(payload, spec.(params := params))
  }

  /** Calling the same spec again produces the same payload and leaves the spec
      as it was: the tabular override only re-sets the value it already set. */
  lemma CallOutputDatasetIdempotent(spec: OutputDatasetSpec)
    ensures CallOutputDataset(CallOutputDataset(spec).after) == CallOutputDataset(spec)
  {
    var first := CallOutputDataset(spec);
    if spec.datasetType == Tabular {
      assert first.after.params["unknownColumns" := JStr("add")] == first.after.params;
    }
  }

  /** The descriptor of a tabular dataset that accepts unknown columns. */
  function TabularDescriptor(id: Json): Json {
    JObj(map["id" := id, "type" := Tabular, "params" := JObj(map["unknownColumns" := JStr("add")])])
  }

  /** A tabular spec with no caller params serialises to the tabular descriptor. */
  lemma TabularSpecPayload(id: Json)
    ensures JObj(CallOutputDataset(OutputDatasetSpec(id, Tabular, map[])).payload) == TabularDescriptor(id)
  {
    var payload := CallOutputDataset(OutputDatasetSpec(id, Tabular, map[])).payload;
    assert map[]["unknownColumns" := JStr("add")] == map["unknownColumns" := JStr("add")];
    assert payload == map["id" := id, "type" := Tabular, "params" := JObj(map["unknownColumns" := JStr("add")])];
  }

  /** The Python value handed to `_create_output_dataset`. */
  datatype OutputArg =
    | Spec(spec: OutputDatasetSpec)
    | Absent                          // None
    | Name(name: string)              // a str
    | Dict(fields: map<string, Json>) // a dict, already a descriptor
    | Unsupported                     // any other value

  /** `_create_output_dataset(outputDataset, dataset_name)`. */
  function CreateOutputDataset(arg: OutputArg, datasetName: Option<string>): (r: Json)
    ensures arg.Spec? ==> r == JObj(CallOutputDataset(arg.spec).payload)
    ensures arg.Absent? ==>
      r == TabularDescriptor(if datasetName.Some? then JStr(datasetName.value) else JNull)
    ensures arg.Name? ==> r == TabularDescriptor(JStr(arg.name))
    ensures arg.Dict? ==> r == JObj(arg.fields)
    ensures arg.Unsupported? ==> r == JNull
  {
    match arg
    case Spec(spec) => JObj(CallOutputDataset(spec).payload)
    case Absent =>
      var id := if datasetName.Some? then JStr(datasetName.value) else JNull;
      TabularSpecPayload(id);
      JObj(CallOutputDataset(OutputDatasetSpec(id, Tabular, map[])).payload)
    case Name(name) =>
      TabularSpecPayload(JStr(name));
      JObj(CallOutputDataset(OutputDatasetSpec(JStr(name), Tabular, map[])).payload)
    case Dict(fields) => JObj(fields)
    case Unsupported => JNull
  }

  /** The Python value a descriptor is when it is passed on again. */
  function DescriptorArg(j: Json): OutputArg {
    match j
    case JObj(fields) => Dict(fields)
    case JNull => Absent
    case JStr(s) => Name(s)
    case _ => Unsupported
  }

  /** Normalising twice is normalising once, so a descriptor built by one
      caller can be handed to another `_create_output_dataset` unchanged;
      only an unsupported value, which becomes None, is not stable. */
  lemma CreateOutputDatasetIdempotent(arg: OutputArg, datasetName: Option<string>, laterName: Option<string>)
    ensures !arg.Unsupported? ==>
      CreateOutputDataset(DescriptorArg(CreateOutputDataset(arg, datasetName)), laterName)
        == CreateOutputDataset(arg, datasetName)
    ensures arg.Unsupported? ==>
      CreateOutputDataset(DescriptorArg(CreateOutputDataset(arg, datasetName)), laterName)
        != CreateOutputDataset(arg, datasetName)
  {
  }

  /** `Transform(inputData="", outputDataset="", runOnCreation=True)`. */
  datatype Transform = Transform(inputData: string, outputDataset: OutputArg, runOnCreation: bool)

  const DefaultTransform := Transform("", Name(""), true)

  /** The keyword parameters the `Transform` constructor accepts. */
  const TransformKeywords: set<string> := {"inputData", "outputDataset", "runOnCreation"}

  /** The params of `Transform.__call__`. */
  function TransformParams(t: Transform): (p: map<string, Json>)
    ensures p.Keys == TransformKeywords
    ensures p["inputData"] == JStr(t.inputData)
    ensures p["outputDataset"] == CreateOutputDataset(t.outputDataset, None)
    ensures p["runOnCreation"] == JBool(t.runOnCreation)
  {
    map[
      "inputData" := JStr(t.inputData),
      "outputDataset" := CreateOutputDataset(t.outputDataset, None),
      "runOnCreation" := JBool(t.runOnCreation)]
  }

  function TransformPayload(t: Transform): Json {
    Procedure("transform", TransformParams(t))
  }

  /** Naming the output dataset is the same as passing the tabular spec with
      that id and no params; the default empty name gives an empty id. */
  lemma TransformNameIsTabularSpec(inputData: string, name: string, runOnCreation: bool)
    ensures TransformPayload(Transform(inputData, Name(name), runOnCreation))
         == TransformPayload(Transform(inputData, Spec(OutputDatasetSpec(JStr(name), Tabular, map[])), runOnCreation))
    ensures TransformParams(DefaultTransform)["outputDataset"] == TabularDescriptor(JStr(""))
    ensures TransformParams(DefaultTransform)["runOnCreation"] == JBool(true)
  {
  }

  /** `key` is in `params` exactly when `value` is not None, and then holds it. */
  predicate PresentIff(params: map<string, Json>, key: string, value: Json) {
    && (key in params <==> value != JNull)
    && (key in params ==> params[key] == value)
  }

  /** `if value is not None: params[key] = value`. */
  function PutIfPresent(params: map<string, Json>, key: string, value: Json): map<string, Json> {
    if value != JNull then params[key := value] else params
  }

  /** `params.get(key)`, with None for a missing key. */
  function Get(params: map<string, Json>, key: string): Json {
    if key in params then params[key] else JNull
  }

  /** `ImportText(...)`: every attribute holds a Python value, None being `JNull`. */
  datatype ImportText = ImportText(
    dataFileUrl: Json, outputDataset: Json, headers: Json, quotechar: Json,
    delimiter: Json, limit: Json, offset: Json, encoding: Json, ignoreBadLines: Json,
    replaceInvalidCharactersWith: Json, select: Json, where: Json, named: Json,
    timestamp: Json, runOnCreation: Json)

  /** Keys are pairwise different. */
  predicate Distinct(keys: seq<string>) {
    forall i, j :: 0 <= i < j < |keys| ==> keys[i] != keys[j]
  }

  /** The dict literal a payload starts from: every key with its value. */
  function Mandatory(keys: seq<string>, values: seq<Json>): (r: map<string, Json>)
    requires |keys| == |values| && Distinct(keys)
    ensures forall i :: 0 <= i < |keys| ==> keys[i] in r && r[keys[i]] == values[i]
    ensures forall k :: k in r ==> k in keys
    decreases |keys|
  {
    if |keys| == 0 then map[]
    else
      var r := Mandatory(keys[1..], values[1..]);
      assert forall i :: 1 <= i < |keys| ==> keys[i] == keys[1..][i - 1];
      r[keys[0] := values[0]]
  }

  /** A run of `if value is not None: params[key] = value` guards, one per
      key in order. Keys already in `params` are kept, each guarded key that
      was not is present exactly when its value is not None, and nothing else
      is added. */
  function PutAllPresent(params: map<string, Json>, keys: seq<string>, values: seq<Json>): (r: map<string, Json>)
    requires |keys| == |values| && Distinct(keys)
    ensures forall k :: k in params ==> k in r
    ensures forall k :: k in params && k !in keys ==> r[k] == params[k]
    ensures forall k :: k in r ==> k in params || k in keys
    ensures forall i :: 0 <= i < |keys| && keys[i] !in params ==> PresentIff(r, keys[i], values[i])
    decreases |keys|
  {
    if |keys| == 0 then params
    else
      var r := PutAllPresent(PutIfPresent(params, keys[0], values[0]), keys[1..], values[1..]);
      assert forall i :: 1 <= i < |keys| ==> keys[i] == keys[1..][i - 1];
      r
  }

  /** The shape of every payload dict here: each mandatory key holds its
      value, each guarded key is present exactly when its value is not None,
      and there is no other key. */
  predicate Shaped(
    params: map<string, Json>, mandatoryKeys: seq<string>, mandatoryValues: seq<Json>,
    guardedKeys: seq<string>, guardedValues: seq<Json>)
    requires |mandatoryKeys| == |mandatoryValues| && |guardedKeys| == |guardedValues|
  {
    && (forall i :: 0 <= i < |mandatoryKeys| ==>
          mandatoryKeys[i] in params && params[mandatoryKeys[i]] == mandatoryValues[i])
    && (forall i :: 0 <= i < |guardedKeys| ==> PresentIff(params, guardedKeys[i], guardedValues[i]))
    && (forall k :: k in params ==> k in mandatoryKeys || k in guardedKeys)
  }

  /** A dict literal of mandatory keys followed by guarded assignments, the
      way every payload `__call__` is written. */
  function BuildParams(
    mandatoryKeys: seq<string>, mandatoryValues: seq<Json>,
    guardedKeys: seq<string>, guardedValues: seq<Json>): (p: map<string, Json>)
    requires |mandatoryKeys| == |mandatoryValues| && |guardedKeys| == |guardedValues|
    requires Distinct(mandatoryKeys + guardedKeys)
    ensures Shaped(p, mandatoryKeys, mandatoryValues, guardedKeys, guardedValues)
  {
    var all := mandatoryKeys + guardedKeys;
    assert forall i :: 0 <= i < |mandatoryKeys| ==> mandatoryKeys[i] == all[i];
    assert forall i :: 0 <= i < |guardedKeys| ==> guardedKeys[i] == all[|mandatoryKeys| + i];
    assert Distinct(mandatoryKeys);
    assert Distinct(guardedKeys);
    PutAllPresent(Mandatory(mandatoryKeys, mandatoryValues), guardedKeys, guardedValues)
  }

  /** A key that is present exactly when its value is not None reads back as that value. */
  lemma PresentIffGet(params: map<string, Json>, key: string, value: Json)
    requires PresentIff(params, key, value)
    ensures Get(params, key) == value
  {
  }

  /** The keys `ImportText.__call__` always sets. */
  const ImportMandatoryKeys: seq<string> := ["dataFileUrl", "outputDataset"]

  /** The keys `ImportText.__call__` sets only for attributes that are not None, in source order. */
  const ImportOptionalKeys: seq<string> := [
    "headers", "quotechar", "delimiter", "limit", "offset", "encoding",
    "ignoreBadLines", "replaceInvalidCharactersWith", "select", "where",
    "named", "timestamp", "runOnCreation"]

  /** The attribute behind each of `ImportOptionalKeys`, position by position. */
  function ImportOptionalValues(t: ImportText): (vs: seq<Json>)
    ensures |vs| == |ImportOptionalKeys|
  {
    [t.headers, t.quotechar, t.delimiter, t.limit, t.offset, t.encoding,
     t.ignoreBadLines, t.replaceInvalidCharactersWith, t.select, t.where,
     t.named, t.timestamp, t.runOnCreation]
  }

  /** No key of `import.text` is used twice. */
  lemma ImportKeysDistinct()
    ensures Distinct(ImportMandatoryKeys + ImportOptionalKeys)
  {
  }

  /** The params of `ImportText.__call__`. */
  function ImportTextParams(t: ImportText): (p: map<string, Json>)
    ensures Shaped(p, ImportMandatoryKeys, [t.dataFileUrl, t.outputDataset],
                   ImportOptionalKeys, ImportOptionalValues(t))
  {
    ImportKeysDistinct();
    BuildParams(ImportMandatoryKeys, [t.dataFileUrl, t.outputDataset],
                ImportOptionalKeys, ImportOptionalValues(t))
  }

  function ImportTextPayload(t: ImportText): Json {
    Procedure("import.text", ImportTextParams(t))
  }

  /** Reads the attributes back from `import.text` params, key by key. */
  function ImportTextFromParams(p: map<string, Json>): ImportText {
    var m := ReadKeys(p, ImportMandatoryKeys);
    var o := ReadKeys(p, ImportOptionalKeys);
    ImportText(m[0], m[1], o[0], o[1], o[2], o[3], o[4], o[5], o[6], o[7], o[8], o[9], o[10], o[11], o[12])
  }

  /** `[params.get(key) for key in keys]`. */
  function ReadKeys(params: map<string, Json>, keys: seq<string>): (vs: seq<Json>)
    ensures |vs| == |keys|
  {
    seq(|keys|, i requires 0 <= i < |keys| => Get(params, keys[i]))
  }

  /** A dict of the payload shape gives back exactly the values it was built from. */
  lemma ReadShaped(
    params: map<string, Json>, mandatoryKeys: seq<string>, mandatoryValues: seq<Json>,
    guardedKeys: seq<string>, guardedValues: seq<Json>)
    requires |mandatoryKeys| == |mandatoryValues| && |guardedKeys| == |guardedValues|
    requires Shaped(params, mandatoryKeys, mandatoryValues, guardedKeys, guardedValues)
    ensures ReadKeys(params, mandatoryKeys) == mandatoryValues
    ensures ReadKeys(params, guardedKeys) == guardedValues
  {
    forall i | 0 <= i < |guardedKeys|
      ensures ReadKeys(params, guardedKeys)[i] == guardedValues[i]
    {
      PresentIffGet(params, guardedKeys[i], guardedValues[i]);
    }
  }

  /** The params lose nothing: every attribute can be read back. */
  lemma ImportTextRoundTrip(t: ImportText)
    ensures ImportTextFromParams(ImportTextParams(t)) == t
  {
    var p := ImportTextParams(t);
    ReadShaped(p, ImportMandatoryKeys, [t.dataFileUrl, t.outputDataset],
               ImportOptionalKeys, ImportOptionalValues(t));
  }

  /** `ExportCSV(exportData, dataFileUrl, headers=None, delimiter=None, quoteChar=None, runOnCreation=None)`. */
  datatype ExportCsv = ExportCsv(
    exportData: Json, dataFileUrl: Json, headers: Json, delimiter: Json,
    quoteChar: Json, runOnCreation: Json)

  /** The keys `ExportCSV.__call__` always sets. */
  const ExportMandatoryKeys: seq<string> := ["exportData", "dataFileUrl"]

  /** The keys it sets only for attributes that are not None, in source order. */
  const ExportOptionalKeys: seq<string> := ["headers", "delimiter", "quoteChar", "runOnCreation"]

  /** No key of `export.csv` is used twice. */
  lemma ExportKeysDistinct()
    ensures Distinct(ExportMandatoryKeys + ExportOptionalKeys)
  {
  }

  /** The params of `ExportCSV.__call__`. */
  function ExportCsvParams(e: ExportCsv): (p: map<string, Json>)
    ensures Shaped(p, ExportMandatoryKeys, [e.exportData, e.dataFileUrl],
                   ExportOptionalKeys, [e.headers, e.delimiter, e.quoteChar, e.runOnCreation])
  {
    ExportKeysDistinct();
    BuildParams(ExportMandatoryKeys, [e.exportData, e.dataFileUrl],
                ExportOptionalKeys, [e.headers, e.delimiter, e.quoteChar, e.runOnCreation])
  }

  function ExportCsvPayload(e: ExportCsv): Json {
    Procedure("export.csv", ExportCsvParams(e))
  }

  /** Reads the attributes back from `export.csv` params, key by key. */
  function ExportCsvFromParams(p: map<string, Json>): ExportCsv {
    var m := ReadKeys(p, ExportMandatoryKeys);
    var o := ReadKeys(p, ExportOptionalKeys);
    ExportCsv(m[0], m[1], o[0], o[1], o[2], o[3])
  }

  /** The params lose nothing: every attribute can be read back. */
  lemma ExportCsvRoundTrip(e: ExportCsv)
    ensures ExportCsvFromParams(ExportCsvParams(e)) == e
  {
    ReadShaped(ExportCsvParams(e), ExportMandatoryKeys, [e.exportData, e.dataFileUrl],
               ExportOptionalKeys, [e.headers, e.delimiter, e.quoteChar, e.runOnCreation]);
  }
}

=== FILE: remote.dfy ===
/** The contract with the remote database service, kept abstract: a request is
    a path and a JSON body, and a response is a status code and a parsed body. */
module Remote {
  import opened Wrappers
  import opened JsonValue

  /** One PUT issued to the service. */
  datatype Request = Request(path: string, payload: Json)

  /** What the service answered; `content` is the already-parsed body. */
  datatype Response = Response(status: int, content: Json)

  /** The service reports creation with status 201; anything else is failure. */
  predicate Created(response: Response) {
    response.status == 201
  }

  /** The exceptions the client raises. */
  datatype Error =
    | ValueError                    // a size or proportion out of range
    | ArgumentError                 // an inconsistent combination of arguments
    | RequestFailed(content: Json)  // a plain `Exception` carrying the response body
    | ProcedureError(content: Json) // the classifier test procedure was refused
    | KeyError(key: string)         // a `%` template or a dict lacked this key
    | TypeError(keyword: string)    // an unknown constructor keyword, or a key applied to a non-dict
    | UnboundLocal(variable: string)

  /** What `level[key]` raises when `level` does not hold `key`. */
  function Refusal(level: Json, key: string): Error {
    if level.JObj? then KeyError(key) else TypeError(key)
  }

  /** Step `i` of the chained subscript is the one that fails: the first `i`
      keys lead somewhere, the first `i + 1` do not, and `error` is what
      subscripting that place with `path[i]` raises. */
  ghost predicate FailsAt(doc: Json, path: seq<string>, i: int, error: Error) {
    && 0 <= i < |path|
    && Lookup(doc, path[..i]).Some? && Lookup(doc, path[..i + 1]).None?
    && error == Refusal(Lookup(doc, path[..i]).value, path[i])
  }

  /** Python's chained subscript `doc[k0][k1]...` on a parsed body: the value
      found, or the exception of the first step that fails. */
  function Subscript(doc: Json, path: seq<string>): (r: Result<Json, Error>)
    ensures r.Success? <==> Lookup(doc, path).Some?
    ensures r.Success? ==> Lookup(doc, path) == Some(r.value)
    ensures r.Failure? ==> exists i :: FailsAt(doc, path, i, r.error)
    decreases |path|
  {
    if |path| == 0 then Success(doc)
    else if !doc.JObj? || path[0] !in doc.fields then
      assert path[..0] == [] && path[..1] == [path[0]];
      assert FailsAt(doc, path, 0, Refusal(doc, path[0]));
      Failure(Refusal(doc, path[0]))
    else
      var r := Subscript(doc.fields[path[0]], path[1..]);
      if r.Failure? then
        ghost var i :| FailsAt(doc.fields[path[0]], path[1..], i, r.error);
        LookupStep(doc, path, i + 1);
        LookupStep(doc, path, i + 2);
        assert FailsAt(doc, path, i + 1, r.error);
        r
      else r
  }

  /** A prefix of a path that starts with a key the document holds is looked
      up in the child under that key. */
  lemma LookupStep(doc: Json, path: seq<string>, n: nat)
    requires 1 <= n <= |path| && doc.JObj? && path[0] in doc.fields
    ensures Lookup(doc, path[..n]) == Lookup(doc.fields[path[0]], path[1..][..n - 1])
  {
    assert path[..n][0] == path[0];
    assert path[..n][1..] == path[1..][..n - 1];
  }

  /** Where the path leads to a dict that lacks the last key, the subscript
      raises `KeyError` for that key. */
  lemma {:induction false} SubscriptMissingKey(doc: Json, path: seq<string>, key: string)
    requires Lookup(doc, path).Some? && Lookup(doc, path).value.JObj?
    requires key !in Lookup(doc, path).value.fields
    ensures Subscript(doc, path + [key]) == Failure(KeyError(key))
    decreases |path|
  {
    if |path| == 0 {
      assert path + [key] == [key];
    } else {
      assert (path + [key])[0] == path[0];
      assert (path + [key])[1..] == path[1..] + [key];
      SubscriptMissingKey(doc.fields[path[0]], path[1..], key);
    }
  }

  /** Path `i` is the first of `paths` that leads nowhere. */
  ghost predicate FirstToFail(doc: Json, paths: seq<seq<string>>, i: int) {
    && 0 <= i < |paths|
    && Lookup(doc, paths[i]).None?
    && forall j :: 0 <= j < i ==> Lookup(doc, paths[j]).Some?
  }

  /** Consecutive statements `v0 = doc[..]; v1 = doc[..]; ...` on one document:
      every value found, in order, or the exception of the first subscript
      that fails. */
  function SubscriptAll(doc: Json, paths: seq<seq<string>>): (r: Result<seq<Json>, Error>)
    ensures r.Success? <==> forall i :: 0 <= i < |paths| ==> Lookup(doc, paths[i]).Some?
    ensures r.Success? ==>
      && |r.value| == |paths|
      && forall i :: 0 <= i < |paths| ==> Lookup(doc, paths[i]) == Some(r.value[i])
    ensures r.Failure? ==>
      exists i :: FirstToFail(doc, paths, i) && Subscript(doc, paths[i]) == Failure(r.error)
    decreases |paths|
  {
    if |paths| == 0 then Success([])
    else
      var first := Subscript(doc, paths[0]);
      if first.Failure? then
        assert FirstToFail(doc, paths, 0);
        Failure(first.error)
      else
        var rest := SubscriptAll(doc, paths[1..]);
        if rest.Failure? then
          ghost var i :| FirstToFail(doc, paths[1..], i) && Subscript(doc, paths[1..][i]) == Failure(rest.error);
          assert FirstToFail(doc, paths, i + 1);
          Failure(rest.error)
        else
          Success([first.value] + rest.value)
  }
}

=== FILE: sampling.dfy ===
/** `stratified_sample`: one `sample(...)` sub-query per weights entry, the
    sub-queries merged, and the merge materialised by a `transform`. It is
    modelled twice: as written, where it cannot get past its first `%` and its
    `Transform(...)` call, and as evidently intended, a two-stage template
    whose result is stated in closed form. */
module Sampling {
  import opened Wrappers
  import opened JsonValue
  import opened Decimal
  import opened Joining
  import opened Template
  import opened Remote
  import opened Payloads

  /** One entry of `weights`: a class value and the number of rows to draw. */
  datatype Stratum = Stratum(key: string, rows: int)

  const SamplePath := "/v1/procedures/stratifiedSample"

  /** The sub-query template, whitespace collapsed. `source` is the key that
      names the dataset: "dataset" in random.py, "table" in utils.py. */
  function SampleTemplate(source: string): seq<Piece> {
    [Lit("SELECT * FROM sample("), Hole(source), Lit(", {rows: "), Hole("value"),
     Lit(", withReplacement: FALSE}) WHERE "), Hole("col"), Lit(" = '"), Hole("key"), Lit("'")]
  }

  /** The mapping of the first `%`: the dataset and the column. */
  function DatasetEnv(source: string, dataset: string, col: string): Env {
    map[source := dataset, "col" := col]
  }

  /** The mapping of the second `%`: one weights entry, its count through `str()`. */
  function StratumEnv(s: Stratum): Env {
    map["key" := s.key, "value" := IntToString(s.rows)]
  }

  /** The keyword arguments a `Transform(...)` call passes; the first one the
      constructor does not accept makes Python raise `TypeError`. */
  function UnexpectedKeyword(keywords: seq<string>): (r: Option<string>)
    ensures r.None? <==> forall i :: 0 <= i < |keywords| ==> keywords[i] in TransformKeywords
    ensures r.Some? ==> r.value !in TransformKeywords && exists i ::
      && 0 <= i < |keywords| && keywords[i] == r.value
      && (forall j :: 0 <= j < i ==> keywords[j] in TransformKeywords)
    decreases |keywords|
  {
    if |keywords| == 0 then None
    else if keywords[0] !in TransformKeywords then Some(keywords[0])
    else
      var r := UnexpectedKeyword(keywords[1..]);
      assert forall i :: 1 <= i < |keywords| ==> keywords[i] == keywords[1..][i - 1];
      if r.Some? then
        ghost var i :| 0 <= i < |keywords| - 1 && keywords[1..][i] == r.value
          && r.value !in TransformKeywords
          && forall j :: 0 <= j < i ==> keywords[1..][j] in TransformKeywords;
        assert keywords[i + 1] == r.value;
        r
      else r
  }

  /** `"SELECT * FROM merge({})".format(",".join(subselects))`: the joined
      sub-queries between the brackets of `merge(...)`. An empty `weights` is
      not rejected and merges nothing. */
  function MergeQuery(subselects: seq<string>): (q: string)
    ensures |q| == 21 + |Join(",", subselects)|
    ensures q[..20] == "SELECT * FROM merge(" && q[|q| - 1] == ')'
    ensures q[20..|q| - 1] == Join(",", subselects)
    ensures |subselects| >= 1 ==> q[20..20 + |subselects[0]|] == subselects[0]
    ensures |subselects| == 0 ==> q == "SELECT * FROM merge()"
  {
    var q := "SELECT * FROM merge(" + (Join(",", subselects) + ")");
    assert q == "SELECT * FROM merge(" + Join(",", subselects) + ")";
    assert q[20..|q| - 1] == Join(",", subselects);
    q
  }

  /** random.py's `stratified_sample` as written. The first `%` is given only
      the dataset and the column; if it succeeded, the second `%` would find no
      field left and return each sub-query unchanged; the `Transform` is then
      built with the keywords `inputData` and `outputData`. */
  function StratifiedSampleAsWritten(
    dataset: string, col: string, strata: seq<Stratum>, output: OutputArg, freshName: string): (r: Result<Request, Error>)
    ensures r.Failure? ==> r.error.KeyError? || r.error.TypeError?
    ensures r.Success? ==> r.value.path == SamplePath
  {
    var first := Format(SampleTemplate("dataset"), DatasetEnv("dataset", dataset, col));
    if first.Failure? then Failure(KeyError(first.error))
    else
      var merge := MergeQuery(seq(|strata|, _ => first.value));
      match UnexpectedKeyword(["inputData", "outputData"])
      case Some(keyword) => Failure(TypeError(keyword))
      case None => Success(Request(SamplePath, TransformPayload(Transform(merge, SampleOutput(output, freshName), true))))
  }

  /** The first `%` of either copy stops at `%(value)s`, the first field its
      mapping lacks. */
  lemma FirstFormatFails(source: string, dataset: string, col: string)
    requires source != "value"
    ensures Format(SampleTemplate(source), DatasetEnv(source, dataset, col)) == Failure("value")
  {
    var t := SampleTemplate(source);
    var env := DatasetEnv(source, dataset, col);
    assert Format(t[3..], env) == Failure("value");
    assert Format(t[2..], env) == Failure("value");
    assert Format(t[1..], env) == Failure("value");
  }

  /** As written, the call never gets anywhere: the first `%` needs `value`. */
  lemma AsWrittenRaisesKeyError(dataset: string, col: string, strata: seq<Stratum>, output: OutputArg, freshName: string)
    ensures StratifiedSampleAsWritten(dataset, col, strata, output, freshName) == Failure(KeyError("value"))
  {
    FirstFormatFails("dataset", dataset, col);
  }

  /** What utils.py hands to `mldb.put`: a payload document, or the
      `Transform` object itself when it is not called. */
  datatype PutBody = Document(payload: Json) | Uncalled(transform: Transform)

  /** utils.py's `stratified_sample` as written: the same first `%`, the
      same `outputData` keyword, and a `Transform` that is never called. */
  function StratifiedSampleInUtilsAsWritten(table: string, col: string, strata: seq<Stratum>, output: OutputArg): (r: Result<PutBody, Error>)
    ensures r.Failure? ==> r.error.KeyError? || r.error.TypeError?
    ensures r.Success? ==> r.value.Uncalled?
  {
    var first := Format(SampleTemplate("table"), DatasetEnv("table", table, col));
    if first.Failure? then Failure(KeyError(first.error))
    else
      var merge := MergeQuery(seq(|strata|, _ => first.value));
      var normalised := CreateOutputDataset(output, Some(table + "_stratified"));
      match UnexpectedKeyword(["inputData", "outputData"])
      case Some(keyword) => Failure(TypeError(keyword))
      case None => Success(Uncalled(Transform(merge, DescriptorArg(normalised), true)))
  }

  /** The utils.py copy fails the same way. */
  lemma UtilsAsWrittenRaisesKeyError(table: string, col: string, strata: seq<Stratum>, output: OutputArg)
    ensures StratifiedSampleInUtilsAsWritten(table, col, strata, output) == Failure(KeyError("value"))
  {
    FirstFormatFails("table", table, col);
  }

  /** The argument utils.py passes to `mldb.put` once its template and its
      keyword are corrected: still the `Transform` object, never its payload. */
  function UtilsPutBody(table: string, col: string, strata: seq<Stratum>, output: OutputArg): (b: PutBody)
    ensures !b.Document?
    ensures b.transform.inputData == MergeQuery(Subselects("table", table, col, strata))
  {
    var merge := MergeQuery(Subselects("table", table, col, strata));
    Uncalled(Transform(merge, DescriptorArg(CreateOutputDataset(output, Some(table + "_stratified"))), true))
  }

  /** Even with the template fixed, the `Transform` keyword `outputData` is
      one the constructor does not accept. */
  lemma OutputDataRejected()
    ensures UnexpectedKeyword(["inputData", "outputData"]) == Some("outputData")
  {
  }

  /** The keywords the corrected call passes, all accepted. */
  lemma CorrectedKeywordsAccepted()
    ensures UnexpectedKeyword(["inputData", "outputDataset"]) == None
  {
  }

  /** The output argument the intended call uses: when none is given, a
      generated name (`freshName`) wrapped as a tabular descriptor. */
  function SampleOutput(output: OutputArg, freshName: string): (arg: OutputArg)
    ensures output.Absent? ==> CreateOutputDataset(arg, None) == TabularDescriptor(JStr(freshName))
    ensures !output.Absent? ==> arg == output
  {
    if output.Absent? then DescriptorArg(CreateOutputDataset(Name(freshName), None)) else output
  }

  /** The intended sub-query for one entry: the dataset and column filled in
      first, the entry second. It samples `rows` rows without replacement and
      keeps those whose column equals the class value. */
  function Subselect(source: string, dataset: string, col: string, s: Stratum): (q: string)
    requires source !in {"col", "key", "value"}
    ensures q == "SELECT * FROM sample(" + dataset + ", {rows: " + IntToString(s.rows)
      + ", withReplacement: FALSE}) WHERE " + col + " = '" + s.key + "'"
  {
    var t := SampleTemplate(source);
    var env1 := DatasetEnv(source, dataset, col);
    var env2 := StratumEnv(s);
    FillThenFormat(t, env1, env2);
    FormatSample(source, env1 + env2);
    Format(Fill(t, env1), env2).value
  }

  /** The sample template with all four fields bound, field by field. */
  lemma FormatSample(source: string, env: Env)
    requires source in env && "value" in env && "col" in env && "key" in env
    ensures Format(SampleTemplate(source), env) == Success(
      "SELECT * FROM sample(" + env[source] + ", {rows: " + env["value"]
      + ", withReplacement: FALSE}) WHERE " + env["col"] + " = '" + env["key"] + "'")
  {
    var t := SampleTemplate(source);
    var s8 := "'";
    var s7 := env["key"] + s8;
    var s6 := " = '" + s7;
    var s5 := env["col"] + s6;
    var s4 := ", withReplacement: FALSE}) WHERE " + s5;
    var s3 := env["value"] + s4;
    var s2 := ", {rows: " + s3;
    var s1 := env[source] + s2;
    assert t[8..][1..] == [];
    assert s8 + "" == s8;
    assert Format(t[8..], env) == Success(s8);
    assert Format(t[7..], env) == Success(s7);
    assert Format(t[6..], env) == Success(s6);
    assert Format(t[5..], env) == Success(s5);
    assert Format(t[4..], env) == Success(s4);
    assert Format(t[3..], env) == Success(s3);
    assert Format(t[2..], env) == Success(s2);
    assert Format(t[1..], env) == Success(s1);
    assert "SELECT * FROM sample(" + s1 == "SELECT * FROM sample(" + env[source] + ", {rows: " + env["value"]
      + ", withReplacement: FALSE}) WHERE " + env["col"] + " = '" + env["key"] + "'";
  }

  /** One sub-query per weights entry, in iteration order. */
  function Subselects(source: string, dataset: string, col: string, strata: seq<Stratum>): (qs: seq<string>)
    requires source !in {"col", "key", "value"}
    ensures |qs| == |strata|
    ensures forall i :: 0 <= i < |strata| ==> qs[i] == Subselect(source, dataset, col, strata[i])
  {
    seq(|strata|, i requires 0 <= i < |strata| => Subselect(source, dataset, col, strata[i]))
  }

  /** random.py's `stratified_sample` as evidently intended: the PUT it sends. */
  function StratifiedSample(
    dataset: string, col: string, strata: seq<Stratum>, output: OutputArg, freshName: string): (r: Request)
    ensures r.path == SamplePath
    ensures r.payload.JObj? && r.payload.fields.Keys == {"type", "params"}
    ensures r.payload.fields["type"] == JStr("transform") && r.payload.fields["params"].JObj?
    ensures var params := r.payload.fields["params"].fields;
      && params.Keys == TransformKeywords
      && params["runOnCreation"] == JBool(true)
      && params["inputData"] == JStr(MergeQuery(Subselects("dataset", dataset, col, strata)))
      && (output.Absent? ==> params["outputDataset"] == TabularDescriptor(JStr(freshName)))
      && (!output.Absent? ==> params["outputDataset"] == CreateOutputDataset(output, None))
  {
    CorrectedKeywordsAccepted();
    var merge := MergeQuery(Subselects("dataset", dataset, col, strata));
    Request(SamplePath, TransformPayload(Transform(merge, SampleOutput(output, freshName), true)))
  }

  /** utils.py's copy as evidently intended: the output is normalised first,
      with `table + "_stratified"` standing in for a missing one. */
  function StratifiedSampleInUtils(table: string, col: string, strata: seq<Stratum>, output: OutputArg): (r: Request)
    ensures r.path == SamplePath
    ensures r.payload.JObj? && r.payload.fields.Keys == {"type", "params"}
    ensures r.payload.fields["type"] == JStr("transform") && r.payload.fields["params"].JObj?
    ensures var params := r.payload.fields["params"].fields;
      && params.Keys == TransformKeywords
      && params["runOnCreation"] == JBool(true)
      && params["inputData"] == JStr(MergeQuery(Subselects("table", table, col, strata)))
      && (output.Absent? ==> params["outputDataset"] == TabularDescriptor(JStr(table + "_stratified")))
    ensures !output.Absent? ==>
      r.payload.fields["params"].fields["outputDataset"]
        == CreateOutputDataset(DescriptorArg(CreateOutputDataset(output, Some(table + "_stratified"))), None)
  {
    var merge := MergeQuery(Subselects("table", table, col, strata));
    var normalised := CreateOutputDataset(output, Some(table + "_stratified"));
    Request(SamplePath, TransformPayload(Transform(merge, DescriptorArg(normalised), true)))
  }

  /** Calling the object utils.py hands over gives exactly the corrected payload. */
  lemma CallingUtilsPutBody(table: string, col: string, strata: seq<Stratum>, output: OutputArg)
    ensures TransformPayload(UtilsPutBody(table, col, strata, output).transform)
         == StratifiedSampleInUtils(table, col, strata, output).payload
  {
  }

  /** The copies part ways on a value that is neither a spec, a name nor a
      dict: random.py sends `outputDataset: None`, while utils.py turns it into
      None first, which the `Transform` then makes a tabular spec with a null id. */
  lemma CopiesDifferOnUnsupported(dataset: string, col: string, strata: seq<Stratum>, freshName: string)
    ensures StratifiedSample(dataset, col, strata, Unsupported, freshName).payload.fields["params"].fields["outputDataset"] == JNull
    ensures StratifiedSampleInUtils(dataset, col, strata, Unsupported).payload.fields["params"].fields["outputDataset"]
         == TabularDescriptor(JNull)
    ensures StratifiedSampleInUtils(dataset, col, strata, Unsupported) != StratifiedSample(dataset, col, strata, Unsupported, freshName)
  {
  }

  /** The two copies send the same request whenever a spec, a name or a dict
      is given. */
  lemma CopiesAgree(dataset: string, col: string, strata: seq<Stratum>, output: OutputArg, freshName: string)
    requires !output.Absent? && !output.Unsupported?
    ensures StratifiedSampleInUtils(dataset, col, strata, output) == StratifiedSample(dataset, col, strata, output, freshName)
  {
    CreateOutputDatasetIdempotent(output, Some(dataset + "_stratified"), None);
    assert Subselects("table", dataset, col, strata) == Subselects("dataset", dataset, col, strata);
  }
}

=== FILE: template.dfy ===
/** Python's `template % mapping` for templates whose only conversions are
    `%(key)s`: each field is replaced, left to right, by the mapping's text for
    its key, and the first field whose key is missing raises `KeyError`. */
module Template {
  import opened Wrappers

  /** A run of literal text, or a `%(key)s` field. */
  datatype Piece = Lit(text: string) | Hole(key: string)

  type Env = map<string, string>

  /** Every field of `t` has a value in `env`. */
  predicate Covers(t: seq<Piece>, env: Env) {
    forall i :: 0 <= i < |t| && t[i].Hole? ==> t[i].key in env
  }

  /** `t % env`; a failure carries the key Python's `KeyError` names. */
  function Format(t: seq<Piece>, env: Env): (r: Result<string, string>)
    ensures r.Success? <==> Covers(t, env)
    ensures r.Failure? ==>
      exists i :: 0 <= i < |t| && t[i] == Hole(r.error) && r.error !in env && Covers(t[..i], env)
    decreases |t|
  {
    if |t| == 0 then Success("")
    else
      var head :=
        match t[0]
        case Lit(text) => Success(text)
        case Hole(key) => if key in env then Success(env[key]) else Failure(key);
      if head.Failure? then
        assert Covers(t[..0], env);
        head
      else
        var tail := Format(t[1..], env);
        if tail.Failure? then
          assert forall i :: 0 <= i < |t| - 1 ==> t[1..][i] == t[i + 1];
          ghost var j :| 0 <= j < |t| - 1 && t[1..][j] == Hole(tail.error) && tail.error !in env
                         && Covers(t[1..][..j], env);
          assert t[j + 1] == Hole(tail.error);
          assert Covers(t[..j + 1], env);
          Failure(tail.error)
        else
          assert forall i :: 1 <= i < |t| ==> t[i] == t[1..][i - 1];
          Success(head.value + tail.value)
  }

  /** The first stage of a two-stage substitution: the fields `env` knows are
      filled in, the others are left for a later `%`. */
  function Fill(t: seq<Piece>, env: Env): (r: seq<Piece>)
    ensures |r| == |t|
  {
    seq(|t|, i requires 0 <= i < |t| =>
      if t[i].Hole? && t[i].key in env then Lit(env[t[i].key]) else t[i])
  }

  /** Filling in some keys first and the rest afterwards gives the same text,
      or the same `KeyError`, as substituting all of them at once. */
  lemma {:induction false} FillThenFormat(t: seq<Piece>, env1: Env, env2: Env)
    requires env1.Keys !! env2.Keys
    ensures Format(Fill(t, env1), env2) == Format(t, env1 + env2)
    decreases |t|
  {
    if |t| > 0 {
      assert Fill(t, env1)[1..] == Fill(t[1..], env1);
      FillThenFormat(t[1..], env1, env2);
    }
  }
}

=== FILE: wrappers.dfy ===
/** Failure-compatible wrappers shared by every module of the model. */
module Wrappers {

  /** A value that may be missing; Python's `None` for optional arguments. */
  datatype Option<+T> = None | Some(value: T) {
    predicate IsFailure() {
      None?
    }

    function PropagateFailure<U>(): Option<U>
      requires None?
    {
      None
    }

    function Extract(): T
      requires Some?
    {
      value
    }
  }

  /** The outcome of an operation that either returns a value or raises. */
  datatype Result<+T, +E> = Success(value: T) | Failure(error: E) {
    predicate IsFailure() {
      Failure?
    }

    function PropagateFailure<U>(): Result<U, E>
      requires Failure?
    {
      Failure(error)
    }

    function Extract(): T
      requires Success?
    {
      value
    }
  }
}
